=== FILE: README.md ===
# Job application tracker — a Dafny model

The tracker is a small CRUD application. An ASP.NET Core API stores job
applications: company name, position, status and date applied. The API has
four layers:

- a FluentValidation rule set;
- an EF Core repository with a paginated listing, latest application first;
- a service that throws `NotFoundException` for a missing id on GET;
- a controller whose exceptions a middleware turns into JSON error bodies.

A React page lists the applications. A form checks the two text fields
before it sends them.

This project models that core as pure Dafny functions over immutable values:

| module | file | models |
|---|---|---|
| `Wrappers` | wrappers.dfy | `Option` and `Result` |
| `Text` | text.dfy | decimal printing and parsing, `padStart`, `includes`, the .NET and JavaScript white-space sets, `trim` |
| `Models` | models.dfy | the status enum and its stored and JSON forms; `DateTime` as a day number plus ticks into the day; the entity; the page shape; the data annotations |
| `Validator` | validator.dfy | the validator's rules, failures and messages |
| `Exceptions` | exceptions.dfy | the exceptions the middleware tells apart |
| `Repository` | repository.dfy | the table as a map from id to entity; find, add, update and delete; the paginated query with 32-bit skip arithmetic |
| `Service` | service.dfy | the service; every call returns the new table, its value and the repository calls it made |
| `Middleware` | middleware.dfy | exception to status code and JSON body |
| `Controller` | controller.dfy | each action's result from the model state, the route id and the service's answer |
| `Form` | form.dfy | the form's `validate`, `formatLocal`, initial fields and `handleSubmit` |
| `Home` | home.dfy | `getErrorMessage` and the page chosen after a save or a delete |

Several inputs come from outside the code, so they are parameters:

- **The current instant.** `now` on the server. `today` as a local date in the browser.
- **The id the database assigns.** `newId`, which may be any id not in the table.
- **The order among equal dates.** The database leaves it open. `ordered` is any sequence that lists the table once, latest date first. `Repository.OrderByDateDescending` proves that one exists for every table.

## Model

| member | source | states |
|---|---|---|
| Models.StatusOfOrdinal | JobApplicationTracker.API/Models/JobApplication.cs:6-12 | a raw status value names one of the four statuses exactly when it is 0 to 3 |
| Models.StatusToString | JobApplicationTracker.API/Data/ApplicationDbContext.cs:13 | the stored text of any status value, named or not, reads back as that value; a defined value is stored under its name |
| Models.StatusToJson | JobApplicationTracker.API/Program.cs:25 | the JSON form is a string exactly when the value is defined, and reading it back gives the same value |
| Models.StatusFromJson | JobApplicationTracker.API/Program.cs:25 | a JSON string is accepted exactly when it is one of the four names |
| Models.TicksOrderIsLexicographic | JobApplicationTracker.API/Repositories/JobApplicationRepository.cs:22 | ordering by DateApplied is ordering by day, then by time of day |
| Models.AnnotationFailures | JobApplicationTracker.API/Models/JobApplication.cs:27-38 | a name property fails its annotations exactly when it is null, blank or over 100 characters; no other property can fail |
| Text.NatToStringRoundTrip | job-app-tracker-frontend/src/components/JobApplicationForm.tsx:12-13 | a printed natural number parses back to itself |
| Text.IntToStringRoundTrip | JobApplicationTracker.API/Services/JobApplicationService.cs:28 | a printed integer, including a negative one, parses back to itself |
| Text.IncludesMeansOccurs | job-app-tracker-frontend/src/pages/Home.tsx:41 | `includes` holds exactly when the substring occurs at some position |
| Text.JsTrimEmptyIffBlank | job-app-tracker-frontend/src/components/JobApplicationForm.tsx:57 | a string trims to empty exactly when it is all JavaScript white space |
| Validator.ErrorMessage | JobApplicationTracker.API/Validators/JobApplicationValidator.cs:10-27 | every CompanyName and Position message opens with the property's name in words; NotEmpty on DateApplied gets the library's default message |
| Validator.MessagesIdentifyFailures | JobApplicationTracker.API/Validators/JobApplicationValidator.cs:10-27 | two failures the rule set can report share a message exactly when they are the same failure |
| Validator.NameRules | JobApplicationTracker.API/Validators/JobApplicationValidator.cs:10-13 | every rule runs: NotEmpty fails exactly on null or blank, MaximumLength on over 100 characters, MinimumLength on under 2; the two length rules pass on null |
| Validator.StatusRules | JobApplicationTracker.API/Validators/JobApplicationValidator.cs:20-22 | the one failure is reported exactly when the raw value is not 0 to 3 |
| Validator.DateRules | JobApplicationTracker.API/Validators/JobApplicationValidator.cs:24-27 | NotEmpty fails exactly on the default DateTime; the future rule fails exactly when the day is after today's |
| Validator.Validate | JobApplicationTracker.API/Validators/JobApplicationValidator.cs:8-28 | no failures exactly when the application is acceptable by an independent definition; failures come property by property in declaration order |
| Validator.ValidateReportsCompanyNameRules | JobApplicationTracker.API/Validators/JobApplicationValidator.cs:10-13 | each CompanyName rule is in the full result exactly when its own condition is violated, whatever the other properties hold |
| Validator.ValidateReportsPositionRules | JobApplicationTracker.API/Validators/JobApplicationValidator.cs:15-18 | each Position rule is in the full result exactly when its own condition is violated, whatever the other properties hold |
| Validator.ValidateReportsStatusAndDateRules | JobApplicationTracker.API/Validators/JobApplicationValidator.cs:20-27 | the status failure and the two date failures are in the full result exactly when their own conditions are violated |
| Validator.ValidatorImpliesAnnotations | JobApplicationTracker.API/Models/JobApplication.cs:27-33 | an application the validator accepts also passes the data annotations |
| Validator.EmptyNameCollectsTwoFailures | JobApplicationTracker.API/Validators/JobApplicationValidator.cs:10-18 | an empty name gets both the required and the too-short failure, in that order; their messages are the property's words followed by "is required" and by "must be at least 2 characters long." |
| Validator.FutureRuleIgnoresTimeOfDay | JobApplicationTracker.API/Validators/JobApplicationValidator.cs:26 | changing the time of day of either date never changes the verdict |
| Repository.GetById | JobApplicationTracker.API/Repositories/JobApplicationRepository.cs:37-38 | finds an entity exactly when its id is stored, and returns the stored entity |
| Repository.Add | JobApplicationTracker.API/Repositories/JobApplicationRepository.cs:40-44 | the new id is added with the input under it; every other entity is unchanged |
| Repository.Update | JobApplicationTracker.API/Repositories/JobApplicationRepository.cs:46-50 | succeeds exactly when the id is stored; replaces that entity only, with the same set of ids |
| Repository.Delete | JobApplicationTracker.API/Repositories/JobApplicationRepository.cs:52-60 | removes exactly the id, keeps the rest, and is a no-op for a missing id |
| Repository.OrderByDateDescending | JobApplicationTracker.API/Repositories/JobApplicationRepository.cs:22 | returns every stored entity once, latest date first |
| Repository.SkipCount | JobApplicationTracker.API/Repositories/JobApplicationRepository.cs:23 | equals `(pageNumber - 1) * pageSize` whenever that fits in 32 bits |
| Repository.SkipTake | JobApplicationTracker.API/Repositories/JobApplicationRepository.cs:23-24 | the result has `min(take, remaining)` items, each the item `skip` places further along |
| Repository.PageCount | JobApplicationTracker.API/Repositories/JobApplicationRepository.cs:33 | the least number of pages of the given size that holds all rows |
| Repository.GetPaginated | JobApplicationTracker.API/Repositories/JobApplicationRepository.cs:16-35 | counts every stored row, echoes page number and size, returns at most a page, and the page count is the ceiling |
| Repository.PageIsOrdered | JobApplicationTracker.API/Repositories/JobApplicationRepository.cs:22-25 | a page is latest-first and holds stored entities only |
| Repository.PageIsSlice | JobApplicationTracker.API/Repositories/JobApplicationRepository.cs:22-25 | without overflow, page n is the run of the ordering that starts at row `(n - 1) * size` |
| Repository.EveryApplicationIsOnAPage | JobApplicationTracker.API/Repositories/JobApplicationRepository.cs:16-35 | every stored application is shown on some page between 1 and the reported page count |
| Repository.NoApplicationOnTwoPages | JobApplicationTracker.API/Repositories/JobApplicationRepository.cs:16-35 | no application is shown on two different reported pages of the same size |
| Repository.SecondPageOfTwentyFive | JobApplicationTracker.API/Repositories/JobApplicationRepository.cs:16-35 | with 25 rows, page 2 of 10 holds rows 11 to 20, and there are 3 pages |
| Repository.OverflowingSkipReturnsFirstRows | JobApplicationTracker.API/Repositories/JobApplicationRepository.cs:23 | page 214748366 of size 10 overflows the skip to a negative count and shows the first ten rows |
| Service.GetPaginatedApplications | JobApplicationTracker.API/Services/JobApplicationService.cs:16-20 | hands the paging arguments to the repository unchanged; one repository call, table unchanged |
| Service.GetById | JobApplicationTracker.API/Services/JobApplicationService.cs:22-31 | returns the stored entity, or throws NotFoundException naming the id when it is missing |
| Service.Create | JobApplicationTracker.API/Services/JobApplicationService.cs:33-37 | one add call; the input is stored under the new id and returned with it, whatever its date |
| Service.Merge | JobApplicationTracker.API/Services/JobApplicationService.cs:44-47 | keeps the stored id and takes the four data fields from the input |
| Service.Update | JobApplicationTracker.API/Services/JobApplicationService.cs:39-51 | null without writing when the id is missing; otherwise the merged entity is stored and returned |
| Service.Delete | JobApplicationTracker.API/Services/JobApplicationService.cs:53-60 | true exactly when the id was stored; the id is gone afterwards; no delete call for a missing id |
| Service.CreateThenGet | JobApplicationTracker.API/Services/JobApplicationService.cs:33-37 | reading a created application back gives the input with its new id |
| Service.UpdateThenGet | JobApplicationTracker.API/Services/JobApplicationService.cs:39-51 | reading an updated application back gives what the update returned |
| Service.UpdateIsIdempotent | JobApplicationTracker.API/Services/JobApplicationService.cs:39-51 | a second identical update changes nothing |
| Service.DeleteTwice | JobApplicationTracker.API/Services/JobApplicationService.cs:53-60 | deleting a stored id answers true, then false, and the second delete leaves the table alone |
| Service.MissingIdThreeWays | JobApplicationTracker.API/Services/JobApplicationService.cs:22-60 | for a missing id the lookup throws, the update answers null and the delete answers false, and neither writes |
| Service.CreateStoresFutureDate | JobApplicationTracker.API/Services/JobApplicationService.cs:33-37 | the service stores a future DateApplied; it throws nothing and makes the add call |
| Middleware.FieldErrors | JobApplicationTracker.API/Middlewares/ExceptionHandlingMiddleware.cs:44-46 | one `{ Field, Error }` entry per validation failure, in order |
| Middleware.HandleException | JobApplicationTracker.API/Middlewares/ExceptionHandlingMiddleware.cs:31-79 | JSON with the content type `WriteAsJsonAsync` sets; 400 for validation and argument failures, 404 for not found, 500 with a fixed message otherwise; details only for validation failures |
| Middleware.UnexpectedMessageDoesNotLeak | JobApplicationTracker.API/Middlewares/ExceptionHandlingMiddleware.cs:34-35 | two unclassified exceptions give the same response, whatever their messages |
| Middleware.ServerErrorIffUnclassified | JobApplicationTracker.API/Middlewares/ExceptionHandlingMiddleware.cs:38-69 | 500 exactly for unclassified exceptions; 404 exactly for NotFoundException |
| Controller.StatusCode | JobApplicationTracker.API/Controllers/JobApplicationsController.cs:20-67 | the status is one of 200, 201, 204, 400, 404 and 500; it is 2xx exactly for the success results, 404 exactly for `NotFound()` and a NotFoundException, 500 exactly for an unclassified exception, 400 for the rest; a thrown exception's status is the one the middleware writes |
| Controller.ModelStateIsValidatorVerdict | JobApplicationTracker.API/Program.cs:28 | with automatic FluentValidation, the model state is valid exactly when the validator accepts the application |
| Controller.GetApplications | JobApplicationTracker.API/Controllers/JobApplicationsController.cs:20-27 | always 200 with exactly the service's page, after one listing call; a missing page number means 1 and a missing size means 10 |
| Controller.DefaultListingIsLatestTen | JobApplicationTracker.API/Controllers/JobApplicationsController.cs:20-27 | without query parameters the answer is the ten latest applications, or all of them when there are fewer |
| Controller.Get | JobApplicationTracker.API/Controllers/JobApplicationsController.cs:30-34 | 200 with the entity, or the service's NotFoundException; never the bare `NotFound()` |
| Controller.Create | JobApplicationTracker.API/Controllers/JobApplicationsController.cs:38-45 | 400 with no service call when the model state is invalid; otherwise 201 at the new id and the entity stored |
| Controller.Update | JobApplicationTracker.API/Controllers/JobApplicationsController.cs:48-60 | model state first, then the id match, neither calling the service; then exactly the service calls of an update, and 404 for a missing id or 200 with the stored entity |
| Controller.Delete | JobApplicationTracker.API/Controllers/JobApplicationsController.cs:63-67 | 204 when the id was stored, 404 otherwise; the id is gone either way, and the calls made are the service delete's |
| Controller.WritesKeepStoreAcceptable | JobApplicationTracker.API/Controllers/JobApplicationsController.cs:38-67 | when every stored application passes the validator, it still does after a create, an update or a delete |
| Controller.ActionsSendOnlyIdMismatchText | JobApplicationTracker.API/Controllers/JobApplicationsController.cs:20-67 | the only plain-text 400 any action returns carries "ID mismatch." |
| Controller.GetMissingIdIs404 | JobApplicationTracker.API/Controllers/JobApplicationsController.cs:30-34 | a GET of a missing id answers 404 with the service's message, by way of the middleware |
| Controller.FutureDateStopsBeforeService | JobApplicationTracker.API/Controllers/JobApplicationsController.cs:38-60 | a future date is turned away with 400 before any service call, on create and update alike |
| Form.FieldError | job-app-tracker-frontend/src/components/JobApplicationForm.tsx:56-72 | no message exactly when the field is not blank and has 2 or more characters; required exactly when blank; too short otherwise |
| Form.Validate | job-app-tracker-frontend/src/components/JobApplicationForm.tsx:51-75 | valid exactly when both fields are acceptable, and exactly when both messages are empty; both fields are always checked |
| Form.TwoDigitsIsPadStart | job-app-tracker-frontend/src/components/JobApplicationForm.tsx:12-13 | two-digit month and day text is what `padStart(2, '0')` makes of the number |
| Form.FormatLocal | job-app-tracker-frontend/src/components/JobApplicationForm.tsx:10-15 | the text ends in `-MM-DD` and starts with the year as printed |
| Form.FormatLocalJoinsPaddedParts | job-app-tracker-frontend/src/components/JobApplicationForm.tsx:10-15 | the text is year, '-', padded month, '-', padded day |
| Form.FormatLocalRoundTrip | job-app-tracker-frontend/src/components/JobApplicationForm.tsx:10-15 | the date reads back from its text, negative and five-digit years included |
| Form.FormatLocalIsInjective | job-app-tracker-frontend/src/components/JobApplicationForm.tsx:10-15 | different dates never give the same text |
| Form.Initial | job-app-tracker-frontend/src/components/JobApplicationForm.tsx:29-49 | edit mode copies the target's fields and its date (today when it has none); add mode is the empty form dated today; messages are cleared |
| Form.HandleSubmit | job-app-tracker-frontend/src/components/JobApplicationForm.tsx:77-92 | sends exactly when the fields are acceptable, and sends them unchanged; every add that passes the form's own checks empties the form, whatever the server answers |
| Form.SecondSubmitAfterAddIsBlocked | job-app-tracker-frontend/src/components/JobApplicationForm.tsx:77-92 | after an add, a second submit sends nothing and shows both required messages |
| Form.AddModeResetMatchesFreshForm | job-app-tracker-frontend/src/components/JobApplicationForm.tsx:86-91 | the form left by an add is the form add mode opens with |
| Form.WhiteSpaceSetsDifferOnlyThere | job-app-tracker-frontend/src/components/JobApplicationForm.tsx:57 | JavaScript's and .NET's white-space sets disagree on a character exactly when it is U+0085 or U+FEFF |
| Form.FormAgreesWithServerElsewhere | job-app-tracker-frontend/src/components/JobApplicationForm.tsx:56-72 | on text without those two characters the form accepts a field exactly when the server's NotEmpty and MinimumLength(2) both pass |
| Form.WhiteSpaceSetsDiffer | job-app-tracker-frontend/src/components/JobApplicationForm.tsx:57 | the form accepts a name the server calls blank (U+0085) and rejects one the server accepts (U+FEFF) |
| Home.GetErrorMessage | job-app-tracker-frontend/src/pages/Home.tsx:28-62 | the network message whenever the code says so; without a response the generic message; else future-date, delete-404, 404, then status messages, in that order |
| Home.ServerResponse | JobApplicationTracker.API/Controllers/JobApplicationsController.cs:41-66 | the client sees the status the controller or middleware chose; a body reaches it as a string exactly when the action returned `BadRequest(string)`, and it is that string |
| Home.FutureDateMessageIsNeverShown | job-app-tracker-frontend/src/pages/Home.tsx:41-43 | with any error code but the network one, no answer whose plain-text body, if any, is the ID-mismatch text turns into the future-date message |
| Home.SavesNeverShowFutureDateMessage | job-app-tracker-frontend/src/pages/Home.tsx:41-43 | whatever a create or an update answers, and whatever non-network code the HTTP client attaches, the page never reports it with the future-date message |
| Home.DeleteOfMissingIdReadsNotFound | job-app-tracker-frontend/src/pages/Home.tsx:46-48 | deleting a missing id shows "Failed to delete: Application not found on server.", whatever non-network code the HTTP client attaches |
| Home.PageAfterSave | job-app-tracker-frontend/src/pages/Home.tsx:99-103 | after a save the list shows page 1 and is fetched again, explicitly only when already on page 1 |
| Home.PageAfterDelete | job-app-tracker-frontend/src/pages/Home.tsx:116-120 | one page back exactly when the only row of a later page was deleted; the page stays at least 1 and the list is fetched again |
| Home.StepBackLandsOnFullPage | job-app-tracker-frontend/src/pages/Home.tsx:116-120 | after that step back the page shown is full and, for pages of 2 or more rows, is the last page (stated on the ordered rows the query pages through) |

## Code and tests disagree

Where the code and its tests or callers disagree, the model follows the code:

- **The service has no future-date check.** `CreateAsync` and `UpdateAsync` do not check DateApplied. The unit tests (JobApplicationTracker.API.UnitTests/JobApplicationServiceTests.cs:70-82 and :103-115) expect both to throw `ArgumentException` for a future date. `Service.CreateStoresFutureDate` states the behaviour as written. Over HTTP the validator still turns such a request away first: see `Controller.FutureDateStopsBeforeService`.
- **The page's future-date message cannot appear.** The page looks for "DateApplied cannot be in the future" in a string body. The validator's message is "Date cannot be in the future", and it travels inside a JSON body. The only string body the actions send is "ID mismatch.". `Home.SavesNeverShowFutureDateMessage` proves that the branch is never taken for a create or an update.
- **The controller's Get never takes its `NotFound()` branch.** The service throws instead of returning null.

## Left out

- Model binding, JSON reading and routing are not modelled. An application reaches the model already bound, with a raw `int` status.
- `[ApiController]` answers an invalid model state with its own 400 before the action body runs. The model returns the action's explicit 400 in its place. Both are 400, and neither calls the service. The JSON bodies differ, and their contents are not modelled.
- String lengths count Dafny characters (Unicode scalar values). .NET and JavaScript count UTF-16 code units, so the two differ outside the Basic Multilingual Plane.
- Models.StatusFromJson: accepts the four exact names only. The registered string-enum converter also reads names in any letter case and numeric strings such as "5"; those are not modelled.
- The clock and the time zone are not modelled. `now` and `today` are parameters. `DateTime.Kind` and the browser's parsing of the stored ISO date are not modelled: the edit form receives the date already read as a local date.
- EF Core's identity generation is not modelled: a created application gets any id not yet in use. Change tracking, `AsNoTracking`, asynchrony and `SaveChanges` are not modelled either.
- The order among applications with equal dates is left open, as the database leaves it.
- Repository.GetPaginated: requires a page number and a page size of at least 1. A zero or negative value reaches the query unchecked in the source. LINQ then gives a negative skip count or an empty take, and `Math.Ceiling` divides by a non-positive size. Those paths are not modelled.
- Service.GetPaginatedApplications: carries the same requirement of a positive page number and size.
- Controller.GetApplications: carries the same requirement too. Query values that do not parse as integers are a binding matter and are not modelled.
- Repository.PageCount: `Math.Ceiling(count / (double)size)` is computed in integers. For 32-bit counts and sizes the double quotient is exact enough that the ceiling equals the integer ceiling.
- Repository.Update: the missing-row failure (a concurrency exception from `SaveChanges`) is modelled as an unclassified exception. The service never reaches it, because it looks the id up first. An entity with Id 0 is not modelled either: EF tracks it as new, because its store-generated key is unset, and the save inserts it under a fresh key and succeeds. The model reports the missing-row failure instead. The service never passes Id 0, since `FindAsync(0)` finds nothing.
- Repository.Add: always stores the application under a fresh id. In the source a non-zero Id in the entity becomes its key, and the save throws when that key is already taken. That path is not modelled.
- Service.Create: inherits this from Repository.Add. A body Id that is already stored makes the source's `CreateAsync` throw; the model stores the application under a fresh id instead.
- Controller.Create: inherits this too. For a valid body whose Id is already stored, the source answers with the exception handler's error, while the model answers 201. The page never sends an Id on create, so only direct API clients can take this path.
- The exception classes under JobApplicationTracker.API/Exceptions are not part of this model. `NotFoundException` and `CustomValidationException` are taken to carry only a message.
- Logging, CORS, Swagger, HTTPS redirection and the service and repository interfaces are not modelled.
- The rendering of the form, the table and the page is not modelled, and neither are the HTTP client module and the React state machinery. `handleSubmit` and `handleDelete` are modelled by their outcomes.
- The page-size selector of the table is not modelled. The user can choose 5, 10 or 20 rows per page, and `Home.StepBackLandsOnFullPage` covers every positive size.
- Home.ServerResponse: assumes that a plain-string `BadRequest` body reaches the page as a string. `NotFound()` is answered with a problem-details JSON body under `[ApiController]`, and the other error results are JSON too. The contents of JSON bodies are not modelled. The only plain-string body the actions build is "ID mismatch." (`Controller.ActionsSendOnlyIdMismatchText`).
- Repository.EveryApplicationIsOnAPage and Repository.NoApplicationOnTwoPages: require fewer than 2^31 stored rows, the range of the 32-bit count. With more rows `CountAsync` fails, and that path is not modelled.

=== FILE: controller.dfy ===
/**
  The REST controller: for each action, which HTTP outcome follows from the
  model state, the route id and the service's answer. An exception the
  service raises is not caught here; it travels to the exception handler.
 */
module Controller {
  import opened Wrappers
  import opened Models
  import opened Exceptions
  import Validator
  import Repository
  import Service
  import Middleware

  type Store = Repository.Store

  const InvalidFieldsMessage := "invalid fields in job application data."
  const IdMismatchMessage := "ID mismatch."

  /** The result an action produces. */
  datatype ActionResult =
    | OkPage(page: PaginatedResult<JobApplication>)
    | OkEntity(entity: JobApplication)
      /** 201 with a Location pointing at the Get action for `routeId`. */
    | CreatedAtGet(routeId: int, entity: JobApplication)
    | NoContent
      /** 400 with `{ status = 400, error = <message>, details = ModelState }`. */
    | BadRequestInvalidFields(message: string)
      /** 400 with a plain string body. */
    | BadRequestText(text: string)
      /**
        `NotFound()`: 404. Under `[ApiController]` the client-error mapping
        gives it a problem-details JSON body.
       */
    | NotFoundResult
      /** The action threw; the exception handler writes the response. */
    | Threw(exception: Exception)

  /** What one request did: the store after it, its result and the repository calls made. */
  datatype Handled = Handled(store: Store, result: ActionResult, calls: seq<Service.RepoCall>)

  /** The results an action returns on success. */
  predicate IsSuccess(result: ActionResult) {
    result.OkPage? || result.OkEntity? || result.CreatedAtGet? || result.NoContent?
  }

  /**
    The HTTP status the client sees: 2xx exactly for the success results,
    404 for `NotFound()` and for a NotFoundException, 500 only for an
    exception the handler does not classify, 400 for everything else.
   */
  function StatusCode(result: ActionResult): (code: int)
    ensures code in {200, 201, 204, 400, 404, 500}
    ensures 200 <= code < 300 <==> IsSuccess(result)
    ensures code == 404 <==> result.NotFoundResult? || (result.Threw? && result.exception.NotFoundException?)
    ensures code == 500 <==> result.Threw? && result.exception.OtherException?
    ensures code == 400 <==>
      || result.BadRequestInvalidFields? || result.BadRequestText?
      || (result.Threw? && (result.exception.ValidationException? || result.exception.ArgumentException?
                            || result.exception.CustomValidationException?))
    ensures result.Threw? ==> code == Middleware.HandleException(result.exception).statusCode
  {
    match result
    case OkPage(_) => 200
    case OkEntity(_) => 200
    case CreatedAtGet(_, _) => 201
    case NoContent => 204
    case BadRequestInvalidFields(_) => 400
    case BadRequestText(_) => 400
    case NotFoundResult => 404
    case Threw(e) => Middleware.HandleException(e).statusCode
  }

  /**
    `ModelState.IsValid` after binding: the data annotations and the
    FluentValidation rules (registered for automatic validation) both pass.
   */
  predicate ModelStateValid(app: JobApplication, now: DateTime) {
    AnnotationFailures(app) == [] && Validator.Validate(app, now) == []
  }

  /** The model state is valid exactly when the validator accepts the application. */
  lemma ModelStateIsValidatorVerdict(app: JobApplication, now: DateTime)
    ensures ModelStateValid(app, now) <==> Validator.Acceptable(app, now)
  {
    if Validator.Validate(app, now) == [] {
      Validator.ValidatorImpliesAnnotations(app, now);
    }
  }

  const DefaultPageNumber := 1
  const DefaultPageSize := 10

  /** GET with optional query parameters, defaulting to page 1 of size 10; always 200. */
  function GetApplications(store: Store, ordered: seq<JobApplication>,
                           pageNumber: Option<Repository.Int32>, pageSize: Option<Repository.Int32>)
    : (r: Handled)
    requires Repository.IsDateOrdering(store, ordered)
    requires pageNumber.Some? ==> pageNumber.value >= 1
    requires pageSize.Some? ==> pageSize.value >= 1
    ensures var n := if pageNumber.Some? then pageNumber.value else 1;
      var s := if pageSize.Some? then pageSize.value else 10;
      && r.result == OkPage(Service.GetPaginatedApplications(store, ordered, n, s).value)
      && r.calls == [Service.GetPaginatedCall(n, s)]
    ensures r.store == store && StatusCode(r.result) == 200
  {
    var number: Repository.Int32 := match pageNumber case Some(n) => n case None => DefaultPageNumber;
    var size: Repository.Int32 := match pageSize case Some(s) => s case None => DefaultPageSize;
    var step := Service.GetPaginatedApplications(store, ordered, number, size);
    Handled(store, OkPage(step.value), step.calls)
  }

  /**
    GET by id. The service never returns null, so the `NotFound()` branch of
    the action cannot be taken; a missing id arrives as the service's exception.
   */
  function Get(store: Store, id: int): (r: Handled)
    ensures r.store == store
    ensures id in store ==> r.result == OkEntity(store[id])
    ensures id !in store ==> r.result == Threw(NotFoundException(Service.NotFoundMessage(id)))
    ensures !r.result.NotFoundResult?
  {
    var step := Service.GetById(store, id);
    match step.value
    case Err(e) => Handled(store, Threw(e), step.calls)
    case Ok(app) => Handled(store, OkEntity(app), step.calls)
  }

  /** POST: 400 without calling the service when the model state is invalid, else 201 at the new id. */
  function Create(store: Store, app: JobApplication, now: DateTime, newId: int): (r: Handled)
    requires newId !in store
    ensures !ModelStateValid(app, now) ==>
      r == Handled(store, BadRequestInvalidFields(InvalidFieldsMessage), [])
    ensures ModelStateValid(app, now) ==>
      && r.result == CreatedAtGet(newId, app.(id := newId))
      && r.store == store[newId := app.(id := newId)]
      && r.calls == [Service.AddCall(app)]
  {
    if !ModelStateValid(app, now) then
      Handled(store, BadRequestInvalidFields(InvalidFieldsMessage), [])
    else
      var step := Service.Create(store, app, newId);
      Handled(step.store, CreatedAtGet(step.value.id, step.value), step.calls)
  }

  /**
    PUT: the model state is checked first, then the route id against the
    body's id, both without calling the service; then 404 for a null from the
    service and 200 with the updated entity otherwise.
   */
  function Update(store: Store, id: int, app: JobApplication, now: DateTime): (r: Handled)
    ensures !ModelStateValid(app, now) ==>
      r == Handled(store, BadRequestInvalidFields(InvalidFieldsMessage), [])
    ensures ModelStateValid(app, now) && id != app.id ==>
      r == Handled(store, BadRequestText(IdMismatchMessage), [])
    ensures ModelStateValid(app, now) && id == app.id ==> r.calls == Service.Update(store, id, app).calls
    ensures ModelStateValid(app, now) && id == app.id && id !in store ==>
      r.result == NotFoundResult && r.store == store
    ensures ModelStateValid(app, now) && id == app.id && id in store ==>
      && r.result == OkEntity(app)
      && r.store == store[id := app]
  {
    if !ModelStateValid(app, now) then
      Handled(store, BadRequestInvalidFields(InvalidFieldsMessage), [])
    else if id != app.id then
      Handled(store, BadRequestText(IdMismatchMessage), [])
    else
      var step := Service.Update(store, id, app);
      match step.value
      case None => Handled(step.store, NotFoundResult, step.calls)
      case Some(updated) => Handled(step.store, OkEntity(updated), step.calls)
  }

  /** DELETE: 204 when the service deleted the entity, 404 when it answered false. */
  function Delete(store: Store, id: int): (r: Handled)
    ensures id in store ==> r.result == NoContent && StatusCode(r.result) == 204
    ensures id !in store ==> r.result == NotFoundResult && StatusCode(r.result) == 404
    ensures r.store == store - {id}
    ensures r.calls == Service.Delete(store, id).calls
  {
    var step := Service.Delete(store, id);
    Handled(step.store, if step.value then NoContent else NotFoundResult, step.calls)
  }

  /**
    Without query parameters the listing is the first page of ten: the ten
    latest applications, or all of them when there are fewer.
   */
  lemma DefaultListingIsLatestTen(store: Store, ordered: seq<JobApplication>)
    requires Repository.IsDateOrdering(store, ordered)
    ensures var page := GetApplications(store, ordered, None, None).result.page;
      && page.data == ordered[..if |store| < 10 then |store| else 10]
      && page.pageNumber == 1 && page.pageSize == 10 && page.totalCount == |store|
  {
  }

  /** Every stored application passes the validator, on the day of `now`. */
  predicate AllAcceptable(store: Store, now: DateTime) {
    forall k :: k in store ==> Validator.Acceptable(store[k], now)
  }

  /**
    Writes keep the table valid: the two actions that store an application
    store it only when the model state is valid, and a delete only removes.
   */
  lemma WritesKeepStoreAcceptable(store: Store, app: JobApplication, id: int, now: DateTime, newId: int)
    requires AllAcceptable(store, now)
    requires newId !in store
    ensures AllAcceptable(Create(store, app, now, newId).store, now)
    ensures AllAcceptable(Update(store, id, app, now).store, now)
    ensures AllAcceptable(Delete(store, id).store, now)
  {
    CreateKeepsStoreAcceptable(store, app, now, newId);
    UpdateKeepsStoreAcceptable(store, id, app, now);
  }

  /** A create stores an application only when the model state, and so the validator, accepts it. */
  lemma CreateKeepsStoreAcceptable(store: Store, app: JobApplication, now: DateTime, newId: int)
    requires AllAcceptable(store, now) && newId !in store
    ensures AllAcceptable(Create(store, app, now, newId).store, now)
  {
    if ModelStateValid(app, now) {
      ModelStateIsValidatorVerdict(app, now);
      assert Validator.Acceptable(app.(id := newId), now);
    }
  }

  /** An update replaces a stored application only with one the validator accepts. */
  lemma UpdateKeepsStoreAcceptable(store: Store, id: int, app: JobApplication, now: DateTime)
    requires AllAcceptable(store, now)
    ensures AllAcceptable(Update(store, id, app, now).store, now)
  {
    if ModelStateValid(app, now) {
      ModelStateIsValidatorVerdict(app, now);
    }
  }

  /** A plain-text 400, if that is what the result is, carries the ID-mismatch message. */
  predicate TextBodyIsIdMismatch(result: ActionResult) {
    result.BadRequestText? ==> result.text == IdMismatchMessage
  }

  /**
    The only plain-text body any action builds is "ID mismatch.": every
    other error either carries an object or leaves the action as an exception.
   */
  lemma ActionsSendOnlyIdMismatchText(store: Store, ordered: seq<JobApplication>,
                                      pageNumber: Option<Repository.Int32>, pageSize: Option<Repository.Int32>,
                                      id: int, app: JobApplication, now: DateTime, newId: int)
    requires Repository.IsDateOrdering(store, ordered)
    requires pageNumber.Some? ==> pageNumber.value >= 1
    requires pageSize.Some? ==> pageSize.value >= 1
    requires newId !in store
    ensures TextBodyIsIdMismatch(GetApplications(store, ordered, pageNumber, pageSize).result)
    ensures TextBodyIsIdMismatch(Get(store, id).result)
    ensures TextBodyIsIdMismatch(Create(store, app, now, newId).result)
    ensures TextBodyIsIdMismatch(Update(store, id, app, now).result)
    ensures TextBodyIsIdMismatch(Delete(store, id).result)
  {
  }

  /** A GET of a missing id is answered 404 by the exception handler, with the service's message. */
  lemma GetMissingIdIs404(store: Store, id: int)
    requires id !in store
    ensures StatusCode(Get(store, id).result) == 404
    ensures Middleware.HandleException(Get(store, id).result.exception).body.error == Service.NotFoundMessage(id)
  {
  }

  /**
    A future DateApplied never reaches the service: the model state (the
    validator's future-date rule) turns the request down with 400 first.
   */
  lemma FutureDateStopsBeforeService(store: Store, app: JobApplication, now: DateTime, newId: int)
    requires newId !in store
    requires app.dateApplied.day > now.day
    ensures Create(store, app, now, newId).result.BadRequestInvalidFields?
    ensures Create(store, app, now, newId).calls == []
    ensures Update(store, app.id, app, now).result.BadRequestInvalidFields?
    ensures Update(store, app.id, app, now).calls == []
  {
    assert !Validator.Acceptable(app, now);
  }
}

=== FILE: exceptions.dfy ===
/**
  The exception kinds that can reach the request pipeline's exception handler.
  Each constructor stands for one catch clause of the handler; the order in
  which the handler tests them decides the kind of an exception that belongs
  to several (an `ArgumentNullException` is an `ArgumentException`).
 */
module Exceptions {
  import Validator

  datatype Exception =
      /** FluentValidation's `ValidationException`, carrying its failures in order. */
    | ValidationException(errors: seq<Validator.ValidationFailure>)
      /** `ArgumentException` or any class derived from it. */
    | ArgumentException(message: string)
    | CustomValidationException(message: string)
    | NotFoundException(message: string)
      /** Any other exception, with its own message. */
    | OtherException(message: string)
}

=== FILE: form.dfy ===
/**
  The browser form for adding and editing an application: its client-side
  checks, the local-date text it puts in the date field, and what a submit
  sends and leaves behind.
 */
module Form {
  import opened Wrappers
  import opened Text
  import opened Models

  /** The form's state: every field is text, except the status picked from the four names. */
  datatype FormFields = FormFields(companyName: string, position: string, status: ApplicationStatus, dateApplied: string)

  /** The two text fields the form checks. */
  datatype Field = CompanyNameField | PositionField {
    function RequiredMessage(): string {
      match this
      case CompanyNameField => "Company Name is required."
      case PositionField => "Position is required."
    }
  }

  const MinLength := 2
  const TooShortMessage := "Must be at least 2 characters."

  /** What the form accepts in a text field: something besides white space, at least two characters long. */
  predicate FieldAcceptable(value: string) {
    !IsJsBlank(value) && |value| >= MinLength
  }

  /**
    The message shown under one field, "" for none: required when the
    trimmed value is empty, too short when the untrimmed value has fewer
    than two characters.
   */
  function FieldError(field: Field, value: string): (error: string)
    ensures error == "" <==> FieldAcceptable(value)
    ensures error == field.RequiredMessage() <==> IsJsBlank(value)
    ensures error == TooShortMessage <==> !IsJsBlank(value) && |value| < MinLength
  {
    JsTrimEmptyIffBlank(value);
    if |JsTrim(value)| == 0 then field.RequiredMessage()
    else if |value| < MinLength then TooShortMessage
    else ""
  }

  /** The outcome of `validate`: the two messages and the verdict. */
  datatype Validation = Validation(companyNameError: string, positionError: string, isValid: bool)

  predicate Acceptable(fields: FormFields) {
    FieldAcceptable(fields.companyName) && FieldAcceptable(fields.position)
  }

  /** Both fields are checked on every call, so both messages show at once. */
  function Validate(fields: FormFields): (v: Validation)
    ensures v.isValid <==> Acceptable(fields)
    ensures v.isValid <==> v.companyNameError == "" && v.positionError == ""
    ensures v.companyNameError == FieldError(CompanyNameField, fields.companyName)
    ensures v.positionError == FieldError(PositionField, fields.position)
  {
    var companyNameError := FieldError(CompanyNameField, fields.companyName);
    var positionError := FieldError(PositionField, fields.position);
    Validation(companyNameError, positionError, companyNameError == "" && positionError == "")
  }

  /* ---- the local date in the date field ---- */

  /** A calendar date in the browser's time zone, as `Date`'s getters report it (month counted from 0). */
  datatype LocalDate = LocalDate(year: int, monthIndex: int, dayOfMonth: int) {
    predicate WellFormed() {
      0 <= monthIndex <= 11 && 1 <= dayOfMonth <= 31
    }
  }

  /** Reads exactly two decimal digits. */
  function ParseTwoDigits(t: string): (r: Option<nat>)
    ensures r.Some? ==> r.value < 100
  {
    if |t| == 2 && IsDigit(t[0]) && IsDigit(t[1]) then Some(DigitValue(t[0]) * 10 + DigitValue(t[1])) else None
  }

  /** A month or day number as two decimal digits. */
  function TwoDigits(n: nat): (s: string)
    requires 1 <= n <= 31
    ensures |s| == 2
    ensures ParseTwoDigits(s) == Some(n)
  {
    [DigitChar(n / 10), DigitChar(n % 10)]
  }

  /** Two digits are what `n.toString().padStart(2, '0')` gives for a month or day number. */
  lemma TwoDigitsIsPadStart(n: nat)
    requires 1 <= n <= 31
    ensures TwoDigits(n) == PadStart(NatToString(n), 2, '0')
  {
    if n >= 10 {
      assert NatToString(n / 10) == [DigitChar(n / 10)];
    }
  }

  /** `-MM-DD`: the part after the year, six characters long. */
  function MonthDaySuffix(monthIndex: int, dayOfMonth: int): (t: string)
    requires 0 <= monthIndex <= 11 && 1 <= dayOfMonth <= 31
    ensures |t| == 6 && t[0] == '-' && t[3] == '-'
    ensures ParseTwoDigits(t[1..3]) == Some(monthIndex + 1) && ParseTwoDigits(t[4..]) == Some(dayOfMonth)
  {
    var month := TwoDigits(monthIndex + 1);
    var day := TwoDigits(dayOfMonth);
    var t := ['-'] + month + ['-'] + day;
    assert t[1..3] == month && t[4..] == day;
    t
  }

  /** `formatLocal`: the year as printed, then the month and day padded to two digits, joined by '-'. */
  function FormatLocal(d: LocalDate): (s: string)
    requires d.WellFormed()
    ensures |s| >= 7 && s[|s| - 6] == '-' && s[|s| - 3] == '-'
    ensures s[..|s| - 6] == IntToString(d.year)
  {
    var year := IntToString(d.year);
    var suffix := MonthDaySuffix(d.monthIndex, d.dayOfMonth);
    var s := year + suffix;
    assert s[..|s| - 6] == year && s[|s| - 6..] == suffix;
    s
  }

  /** The field text is the year, then '-', the month, '-' and the day, month and day padded as `padStart(2, '0')` pads them. */
  lemma FormatLocalJoinsPaddedParts(d: LocalDate)
    requires d.WellFormed()
    ensures FormatLocal(d) == IntToString(d.year) + (['-'] + PadStart(NatToString(d.monthIndex + 1), 2, '0')
                              + ['-'] + PadStart(NatToString(d.dayOfMonth), 2, '0'))
  {
    TwoDigitsIsPadStart(d.monthIndex + 1);
    TwoDigitsIsPadStart(d.dayOfMonth);
    assert FormatLocal(d) == IntToString(d.year) + MonthDaySuffix(d.monthIndex, d.dayOfMonth);
  }

  /** Reads a `formatLocal` string back: the last six characters are `-MM-DD`, everything before them the year. */
  function ParseLocal(s: string): (r: Option<LocalDate>)
    ensures r.Some? ==> r.value.WellFormed()
  {
    if |s| < 7 || s[|s| - 6] != '-' || s[|s| - 3] != '-' then None
    else
      match (ParseInt(s[..|s| - 6]), ParseTwoDigits(s[|s| - 5..|s| - 3]), ParseTwoDigits(s[|s| - 2..]))
      case (Some(year), Some(month), Some(day)) =>
        if 1 <= month <= 12 && 1 <= day <= 31 then Some(LocalDate(year, month - 1, day)) else None
      case _ => None
  }

  lemma FormatLocalRoundTrip(d: LocalDate)
    requires d.WellFormed()
    ensures ParseLocal(FormatLocal(d)) == Some(d)
  {
    var s := FormatLocal(d);
    var suffix := MonthDaySuffix(d.monthIndex, d.dayOfMonth);
    assert s == IntToString(d.year) + suffix;
    assert s[|s| - 5..|s| - 3] == suffix[1..3];
    assert s[|s| - 2..] == suffix[4..];
    IntToStringRoundTrip(d.year);
  }

  /** Distinct dates give distinct field texts. */
  lemma FormatLocalIsInjective(a: LocalDate, b: LocalDate)
    requires a.WellFormed() && b.WellFormed()
    ensures FormatLocal(a) == FormatLocal(b) ==> a == b
  {
    FormatLocalRoundTrip(a);
    FormatLocalRoundTrip(b);
  }

  /* ---- filling and submitting ---- */

  /** The empty form of add mode, dated today. */
  function EmptyForm(today: LocalDate): FormFields
    requires today.WellFormed()
  {
    FormFields("", "", Applied, FormatLocal(today))
  }

  /** The application being edited, with its stored date already read as a local date (None when it has none). */
  datatype EditTarget = EditTarget(companyName: string, position: string, status: ApplicationStatus, dateApplied: Option<LocalDate>)

  /** The fields after the form is given `initialData` (edit mode) or none (add mode); messages are cleared. */
  function Initial(initialData: Option<EditTarget>, today: LocalDate): (r: (FormFields, Validation))
    requires today.WellFormed()
    requires initialData.Some? && initialData.value.dateApplied.Some? ==> initialData.value.dateApplied.value.WellFormed()
    ensures r.1 == Validation("", "", true)
    ensures initialData.None? ==> r.0 == EmptyForm(today)
    ensures initialData.Some? ==>
      && r.0.companyName == initialData.value.companyName
      && r.0.position == initialData.value.position
      && r.0.status == initialData.value.status
    ensures initialData.Some? ==>
      ParseLocal(r.0.dateApplied) == Some(match initialData.value.dateApplied case Some(d) => d case None => today)
  {
    match initialData
    case None => (EmptyForm(today), Validation("", "", true))
    case Some(target) =>
      var date := match target.dateApplied case Some(d) => d case None => today;
      FormatLocalRoundTrip(date);
      (FormFields(target.companyName, target.position, target.status, FormatLocal(date)), Validation("", "", true))
  }

  /** One press of the submit button. */
  datatype Submission = Submission(sent: Option<FormFields>, after: FormFields, messages: Validation)

  /**
    `handleSubmit`: nothing is sent while a field fails; otherwise the fields
    are sent as they are and, in add mode only, the form is emptied again.
   */
  function HandleSubmit(fields: FormFields, editing: bool, today: LocalDate): (r: Submission)
    requires today.WellFormed()
    ensures r.messages == Validate(fields)
    ensures r.sent.Some? <==> Acceptable(fields)
    ensures r.sent.Some? ==> r.sent.value == fields
    ensures r.sent.None? || editing ==> r.after == fields
    ensures r.sent.Some? && !editing ==> r.after == EmptyForm(today)
  {
    var v := Validate(fields);
    if !v.isValid then Submission(None, fields, v)
    else Submission(Some(fields), if editing then fields else EmptyForm(today), v)
  }

  /** After an add, pressing submit again sends nothing: both fields report they are required. */
  lemma SecondSubmitAfterAddIsBlocked(fields: FormFields, today: LocalDate)
    requires today.WellFormed()
    requires Acceptable(fields)
    ensures var after := HandleSubmit(fields, false, today).after;
      && HandleSubmit(after, false, today).sent.None?
      && HandleSubmit(after, false, today).messages
         == Validation(CompanyNameField.RequiredMessage(), PositionField.RequiredMessage(), false)
  {
  }

  /** Submitting in add mode leaves the same form as opening add mode. */
  lemma AddModeResetMatchesFreshForm(fields: FormFields, today: LocalDate)
    requires today.WellFormed()
    requires Acceptable(fields)
    ensures HandleSubmit(fields, false, today).after == Initial(None, today).0
  {
  }

  /**
    The two sides disagree on white space: the form lets two U+0085
    characters through (JavaScript's `trim` keeps U+0085) where the server's
    NotEmpty rule rejects them, and it rejects two U+FEFF characters
    (JavaScript trims U+FEFF) where the server accepts them.
   */
  lemma WhiteSpaceSetsDiffer()
    ensures FieldAcceptable("\U{85}\U{85}") && IsDotNetBlank("\U{85}\U{85}")
    ensures !FieldAcceptable("\U{FEFF}\U{FEFF}") && !IsDotNetBlank("\U{FEFF}\U{FEFF}")
  {
    assert !IsJsWhiteSpace("\U{85}\U{85}"[0]);
    assert !IsDotNetWhiteSpace("\U{FEFF}\U{FEFF}"[0]);
  }

  /** The two white-space sets differ in exactly two characters, U+0085 and U+FEFF. */
  lemma WhiteSpaceSetsDifferOnlyThere(c: char)
    ensures IsJsWhiteSpace(c) != IsDotNetWhiteSpace(c) <==> c == '\U{85}' || c == '\U{FEFF}'
  {
  }

  /**
    Away from those two characters the form's check on a field is the
    server's NotEmpty together with its MinimumLength(2).
   */
  lemma FormAgreesWithServerElsewhere(s: string)
    requires forall i :: 0 <= i < |s| ==> s[i] != '\U{85}' && s[i] != '\U{FEFF}'
    ensures FieldAcceptable(s) <==> !IsDotNetBlank(s) && |s| >= MinLength
  {
    forall i | 0 <= i < |s|
      ensures IsJsWhiteSpace(s[i]) == IsDotNetWhiteSpace(s[i])
    {
      WhiteSpaceSetsDifferOnlyThere(s[i]);
    }
  }
}

=== FILE: home.dfy ===
/**
  The list page: the message it shows when a request fails, and which page
  it asks for after a save or a delete.
 */
module Home {
  import opened Wrappers
  import opened Text
  import opened Models
  import Repository
  import Controller

  /** The three requests the page reports on, with the word used in its messages. */
  datatype Operation = FetchOp | SaveOp | DeleteOp {
    function Name(): string {
      match this
      case FetchOp => "fetch"
      case SaveOp => "save"
      case DeleteOp => "delete"
    }
  }

  /** The body of an error response as the HTTP client hands it over: a string, or parsed JSON. */
  datatype ResponseData = TextData(text: string) | JsonData

  datatype HttpResponse = HttpResponse(status: int, data: ResponseData)

  /** A rejected request: an HTTP-client error (with its code and the response, when one came) or anything else. */
  datatype ClientError =
    | OtherError
    | HttpClientError(code: Option<string>, response: Option<HttpResponse>)

  const NetworkErrorCode := "ERR_NETWORK"
  const FutureDateMarker := "DateApplied cannot be in the future"
  const FutureDateMessage := "Validation" + " failed: Date Applied cannot be in the future (server check)."
  const DeleteNotFoundMessage := "Failed to delete: " + "Application not found on server."

  function BaseMessage(op: Operation): (m: string)
    ensures |m| > 0 && m[0] == 'F'
  {
    var m := "Failed to " + op.Name() + " job application(s).";
    assert m[0] == "Failed to "[0];
    m
  }

  function NetworkMessage(op: Operation): string {
    "Could not connect to the server to " + op.Name() + " data. Please check your network or API status."
  }

  function NotFoundStatusMessage(status: int): (m: string)
    ensures |m| > 0 && m[0] == 'R'
  {
    var m := "Resource not found: Server returned status " + IntToString(status) + ".";
    assert m[0] == "Resource not found: Server returned status "[0];
    m
  }

  function StatusMessage(op: Operation, status: int): (m: string)
    ensures |m| > 0 && m[0] == 'F'
  {
    var m := BaseMessage(op) + ": Server returned status " + IntToString(status) + ".";
    assert m[0] == BaseMessage(op)[0];
    m
  }

  /** The client got an answer from the server: an HTTP-client error without the network code, with a response. */
  predicate Answered(err: ClientError) {
    err.HttpClientError? && err.code != Some(NetworkErrorCode) && err.response.Some?
  }

  /** The test for the server's future-date complaint: a 400 on a save whose body is a string naming it. */
  predicate ComplainsOfFutureDate(err: ClientError, op: Operation) {
    && Answered(err)
    && err.response.value.status == 400 && op == SaveOp
    && err.response.value.data.TextData?
    && Includes(err.response.value.data.text, FutureDateMarker)
  }

  /**
    `getErrorMessage`: the network code is checked first, then the response:
    the future-date complaint on a save, a 404 on a delete, any other 404,
    then any other status; without a response, and for anything that is not
    an HTTP-client error, the generic message.
   */
  function GetErrorMessage(err: ClientError, op: Operation): (m: string)
    ensures err.HttpClientError? && err.code == Some(NetworkErrorCode) ==> m == NetworkMessage(op)
    ensures !Answered(err) && !(err.HttpClientError? && err.code == Some(NetworkErrorCode)) ==> m == BaseMessage(op)
    ensures ComplainsOfFutureDate(err, op) ==> m == FutureDateMessage
    ensures Answered(err) && !ComplainsOfFutureDate(err, op) ==>
      m == (if err.response.value.status == 404 then
              (if op == DeleteOp then DeleteNotFoundMessage else NotFoundStatusMessage(404))
            else StatusMessage(op, err.response.value.status))
  {
    var baseMessage := BaseMessage(op);
    match err
    case OtherError => baseMessage
    case HttpClientError(code, response) =>
      if code == Some(NetworkErrorCode) then NetworkMessage(op)
      else
        match response
        case None => baseMessage
        case Some(HttpResponse(status, data)) =>
          if status == 400 && op == SaveOp && data.TextData? && Includes(data.text, FutureDateMarker) then
            FutureDateMessage
          else if status == 404 && op == DeleteOp then DeleteNotFoundMessage
          else if status == 404 then NotFoundStatusMessage(status)
          else StatusMessage(op, status)
  }

  /* ---- what the server's answers look like to the page ---- */

  /**
    The response a controller result becomes on the wire: the exception
    handler and the 400 for invalid fields write JSON, and so does `NotFound()`,
    whose empty result `[ApiController]` turns into a problem-details body;
    `BadRequest(string)` writes its string as plain text.
   */
  function ServerResponse(result: Controller.ActionResult): (r: HttpResponse)
    ensures r.status == Controller.StatusCode(result)
    ensures r.data.TextData? <==> result.BadRequestText?
    ensures r.data.TextData? ==> r.data.text == result.text
  {
    var data := match result
      case BadRequestText(text) => TextData(text)
      case _ => JsonData;
    HttpResponse(Controller.StatusCode(result), data)
  }

  lemma IncludesNeedsRoom(s: string, sub: string)
    requires |s| < |sub|
    ensures !Includes(s, sub)
  {
  }

  /**
    No answer the server gives turns into the future-date message: its
    future-date failure travels as JSON, and the only string body its actions
    build (see `Controller.ActionsSendOnlyIdMismatchText`) is too short to
    name the rule.
   */
  lemma FutureDateMessageIsNeverShown(code: Option<string>, result: Controller.ActionResult, op: Operation)
    requires code != Some(NetworkErrorCode)
    requires Controller.TextBodyIsIdMismatch(result)
    ensures GetErrorMessage(HttpClientError(code, Some(ServerResponse(result))), op) != FutureDateMessage
  {
    var response := ServerResponse(result);
    if response.data.TextData? {
      IncludesNeedsRoom(response.data.text, FutureDateMarker);
    }
    assert !ComplainsOfFutureDate(HttpClientError(code, Some(response)), op);
    assert FutureDateMessage[0] == 'V' && DeleteNotFoundMessage[0] == 'F';
  }

  /**
    Neither save the page makes, a create or an update, is ever reported
    with the future-date message, whatever code the HTTP client gives the
    error for the status ("ERR_BAD_REQUEST" for a 4xx, "ERR_BAD_RESPONSE"
    for a 5xx), as long as it is not the network code.
   */
  lemma SavesNeverShowFutureDateMessage(code: Option<string>, store: Repository.Store, id: int,
                                        app: JobApplication, now: DateTime, newId: int)
    requires code != Some(NetworkErrorCode)
    requires newId !in store
    ensures GetErrorMessage(HttpClientError(code, Some(ServerResponse(Controller.Create(store, app, now, newId).result))), SaveOp)
            != FutureDateMessage
    ensures GetErrorMessage(HttpClientError(code, Some(ServerResponse(Controller.Update(store, id, app, now).result))), SaveOp)
            != FutureDateMessage
  {
    FutureDateMessageIsNeverShown(code, Controller.Create(store, app, now, newId).result, SaveOp);
    FutureDateMessageIsNeverShown(code, Controller.Update(store, id, app, now).result, SaveOp);
  }

  /**
    A server 404 on a delete always reads as "not found on server", whatever
    caused it; the HTTP client rejects it with "ERR_BAD_REQUEST", or any
    code other than the network one.
   */
  lemma DeleteOfMissingIdReadsNotFound(code: Option<string>, store: Repository.Store, id: int)
    requires code != Some(NetworkErrorCode)
    requires id !in store
    ensures GetErrorMessage(HttpClientError(code, Some(ServerResponse(Controller.Delete(store, id).result))), DeleteOp)
            == DeleteNotFoundMessage
  {
  }

  /* ---- the page asked for next ---- */

  /** After a successful request the page either moves to another page number or fetches the current one again. */
  datatype PageChange = SetPage(page: int) | Refetch

  /** The page number afterwards. */
  function PageAfter(current: int, change: PageChange): int {
    match change
    case SetPage(p) => p
    case Refetch => current
  }

  /** The list is fetched again: explicitly, or by the effect that watches the page number when it changes. */
  predicate Refreshes(current: int, change: PageChange) {
    change.Refetch? || change.page != current
  }

  /** After a save: back to page 1, or a fetch when already there. */
  function PageAfterSave(page: int): (c: PageChange)
    requires page >= 1
    ensures PageAfter(page, c) == 1
    ensures Refreshes(page, c)
    ensures c.Refetch? <==> page == 1
  {
    if page != 1 then SetPage(1) else Refetch
  }

  /** After a delete: one page back when the only row on a later page went, else a fetch. */
  function PageAfterDelete(rowsOnPage: nat, page: int): (c: PageChange)
    requires page >= 1
    ensures c.SetPage? <==> rowsOnPage == 1 && page > 1
    ensures c.SetPage? ==> c.page == page - 1
    ensures PageAfter(page, c) >= 1
    ensures Refreshes(page, c)
  {
    if rowsOnPage == 1 && page > 1 then SetPage(page - 1) else Refetch
  }

  lemma DivOfMultiplePlus(q: int, r: int, size: int)
    requires size >= 1 && 0 <= r < size
    ensures (q * size + r) / size == q
  {
    var x := q * size + r;
    var d := x / size;
    assert x == d * size + x % size;
    assert d * size <= x < (q + 1) * size;
    assert q * size <= x < (d + 1) * size;
    Repository.MulStrict(d, q + 1, size);
    Repository.MulStrict(q, d + 1, size);
  }

  /** Arithmetic of the listing: page `page` showed one row and `count` rows are left. */
  lemma PreviousPageArithmetic(before: nat, count: nat, page: int, size: int)
    requires page > 1 && size >= 1
    requires Repository.PageOffset(page, size) < before
    requires size == 1 || before - Repository.PageOffset(page, size) == 1
    requires count == before - 1
    ensures Repository.PageOffset(page - 1, size) < count
    ensures count - Repository.PageOffset(page - 1, size) >= size
    ensures size >= 2 ==> Repository.PageCount(count, size) == page - 1
  {
    assert (page - 1) * size == (page - 2) * size + size;
    if size >= 2 {
      assert count == (page - 1) * size;
      DivOfMultiplePlus(page - 1, size - 1, size);
    }
  }

  /**
    Deleting the only row of a later page steps back to the previous page,
    which is then full; with pages of two or more rows it is also the last
    page, one fewer than before. `rows` is the ordered table the listing
    pages through, before the delete, and `rowsAfter` the one after it.
   */
  lemma StepBackLandsOnFullPage(rows: seq<JobApplication>, rowsAfter: seq<JobApplication>,
                                page: Repository.Int32, size: Repository.Int32)
    requires page > 1 && size >= 1 && Repository.PageOffset(page, size) <= Repository.Int32Max
    requires |Repository.SkipTake(rows, Repository.SkipCount(page, size), size)| == 1
    requires |rowsAfter| == |rows| - 1
    ensures PageAfterDelete(1, page) == SetPage(page - 1)
    ensures |Repository.SkipTake(rowsAfter, Repository.SkipCount(page - 1, size), size)| == size
    ensures size >= 2 ==> Repository.PageCount(|rowsAfter|, size) == page - 1
  {
    PreviousPageArithmetic(|rows|, |rowsAfter|, page, size);
  }
}

=== FILE: middleware.dfy ===
/**
  The central exception handler: every exception that escapes a request is
  turned into a JSON error response whose body repeats the status code.
 */
module Middleware {
  import opened Wrappers
  import opened Exceptions
  import Validator

  /** One entry of `details`: the failing property and its message. */
  datatype FieldError = FieldError(field: string, error: string)

  /** The JSON body `{ status, error, details }`; `details` is null unless validation failed. */
  datatype ErrorBody = ErrorBody(status: int, error: string, details: Option<seq<FieldError>>)

  datatype ErrorResponse = ErrorResponse(statusCode: int, contentType: string, body: ErrorBody)

  const BadRequest := 400
  const NotFound := 404
  const InternalServerError := 500

  /**
    The content type of the response. The handler first sets
    "application/json"; `WriteAsJsonAsync` then sets its own default, which
    adds the charset.
   */
  const JsonContentType := "application/json; charset=utf-8"

  const UnexpectedErrorMessage := "An unexpected error occurred."
  const ValidationErrorsMessage := "One or more validation errors occurred."

  function FieldErrors(errors: seq<Validator.ValidationFailure>): (details: seq<FieldError>)
    ensures |details| == |errors|
    ensures forall i :: 0 <= i < |errors| ==>
      details[i] == FieldError(errors[i].PropertyName(), Validator.ErrorMessage(errors[i]))
  {
    seq(|errors|, i requires 0 <= i < |errors| => FieldError(errors[i].PropertyName(), Validator.ErrorMessage(errors[i])))
  }

  /**
    `HandleExceptionAsync`: starts from 500 with a fixed message and no
    details, and the first matching case of the switch overrides them.
   */
  function HandleException(e: Exception): (r: ErrorResponse)
    ensures r.contentType == JsonContentType
    ensures r.statusCode in {BadRequest, NotFound, InternalServerError}
    ensures r.body.status == r.statusCode
    ensures r.body.details.Some? <==> e.ValidationException?
    ensures e.ValidationException? ==>
      && r.statusCode == BadRequest && r.body.error == ValidationErrorsMessage
      && |r.body.details.value| == |e.errors|
      && forall i :: 0 <= i < |e.errors| ==>
           r.body.details.value[i] == FieldError(e.errors[i].PropertyName(), Validator.ErrorMessage(e.errors[i]))
    ensures e.ArgumentException? || e.CustomValidationException? ==>
      r.statusCode == BadRequest && r.body.error == e.message
    ensures e.NotFoundException? ==> r.statusCode == NotFound && r.body.error == e.message
    ensures e.OtherException? ==> r.statusCode == InternalServerError && r.body.error == UnexpectedErrorMessage
  {
    var (status, message, details) :=
      match e
      case ValidationException(errors) => (BadRequest, ValidationErrorsMessage, Some(FieldErrors(errors)))
      case ArgumentException(m) => (BadRequest, m, None)
      case CustomValidationException(m) => (BadRequest, m, None)
      case NotFoundException(m) => (NotFound, m, None)
      case OtherException(_) => (InternalServerError, UnexpectedErrorMessage, None);
    ErrorResponse(status, JsonContentType, ErrorBody(status, message, details))
  }

  /** An unclassified exception's own message never reaches the response. */
  lemma UnexpectedMessageDoesNotLeak(m1: string, m2: string)
    ensures HandleException(OtherException(m1)) == HandleException(OtherException(m2))
  {
  }

  /** A response is a server error exactly when the exception is unclassified. */
  lemma ServerErrorIffUnclassified(e: Exception)
    ensures HandleException(e).statusCode == InternalServerError <==> e.OtherException?
    ensures HandleException(e).statusCode == NotFound <==> e.NotFoundException?
  {
  }
}

=== FILE: models.dfy ===
/**
  The entity of the tracker and the values around it: the application status
  enumeration and its persisted and wire forms, .NET's DateTime reduced to a
  day number and a time of day, the paginated result shape, and the data
  annotations ASP.NET checks when it builds the model state.
 */
module Models {
  import opened Wrappers
  import Text

  /** The four named statuses; the enum gives them the ordinals 0 to 3 in this order. */
  datatype ApplicationStatus = Applied | Interviewing | Offered | Rejected {

    function Ordinal(): (v: int)
      ensures 0 <= v <= 3
      ensures StatusOfOrdinal(v) == Some(this)
    {
      match this
      case Applied => 0
      case Interviewing => 1
      case Offered => 2
      case Rejected => 3
    }

    function Name(): (name: string)
      ensures StatusNamed(name) == Some(this)
    {
      match this
      case Applied => "Applied"
      case Interviewing => "Interviewing"
      case Offered => "Offered"
      case Rejected => "Rejected"
    }
  }

  /** The named status with a given ordinal, if the ordinal is one of the four. */
  function StatusOfOrdinal(v: int): (r: Option<ApplicationStatus>)
    ensures r.Some? <==> 0 <= v <= 3
  {
    if v == 0 then Some(Applied)
    else if v == 1 then Some(Interviewing)
    else if v == 2 then Some(Offered)
    else if v == 3 then Some(Rejected)
    else None
  }

  /** The status whose name is exactly `name`. */
  function StatusNamed(name: string): (r: Option<ApplicationStatus>)
    ensures r.Some? ==> |name| > 0 && !Text.IsDigit(name[0]) && name[0] != '-'
  {
    if name == "Applied" then Some(Applied)
    else if name == "Interviewing" then Some(Interviewing)
    else if name == "Offered" then Some(Offered)
    else if name == "Rejected" then Some(Rejected)
    else None
  }

  /**
    A raw enum value is "in the enum" when it is one of the four ordinals;
    a C# enum variable can hold any other int as well.
   */
  predicate IsInEnum(v: int) {
    StatusOfOrdinal(v).Some?
  }

  /**
    Persisted form of a status (a string column): `Enum.ToString`, which gives
    the name of a defined value and the decimal number of any other value.
   */
  function StatusToString(v: int): (s: string)
    ensures IsInEnum(v) ==> s == StatusOfOrdinal(v).value.Name()
    ensures StatusFromString(s) == Some(v)
  {
    match StatusOfOrdinal(v)
    case Some(st) => st.Name()
    case None => Text.IntToStringRoundTrip(v); Text.IntToString(v)
  }

  /** Reading the string column back: a name, else a decimal number. */
  function StatusFromString(s: string): (r: Option<int>)
    ensures r.Some? && StatusNamed(s).None? ==> Text.ParseInt(s) == r
  {
    match StatusNamed(s)
    case Some(st) => Some(st.Ordinal())
    case None => Text.ParseInt(s)
  }

  /** A JSON token for a status: a string, or a number for a value that has no name. */
  datatype JsonToken = JsonString(text: string) | JsonNumber(number: int)

  /** The JSON string-enum converter's writer. */
  function StatusToJson(v: int): (t: JsonToken)
    ensures t.JsonString? <==> IsInEnum(v)
    ensures StatusFromJson(t) == Some(v)
  {
    match StatusOfOrdinal(v)
    case Some(st) => JsonString(st.Name())
    case None => JsonNumber(v)
  }

  /** The JSON string-enum converter's reader. */
  function StatusFromJson(t: JsonToken): (r: Option<int>)
    ensures t.JsonString? ==> (r.Some? <==> StatusNamed(t.text).Some?)
  {
    match t
    case JsonString(text) =>
      (match StatusNamed(text)
       case Some(st) => Some(st.Ordinal())
       case None => None)
    case JsonNumber(n) => Some(n)
  }

  /** .NET ticks (100 ns) in one day. */
  const TicksPerDay: nat := 864_000_000_000
  /** Day number of 9999-12-31, the last day a DateTime can hold, counted from 0001-01-01. */
  const MaxDay: nat := 3_652_058

  type DayNumber = d: nat | d <= MaxDay
  type TimeOfDay = t: nat | t < TicksPerDay

  /** A .NET DateTime: a calendar day since 0001-01-01 and the ticks elapsed within it. */
  datatype DateTime = DateTime(day: DayNumber, time: TimeOfDay) {

    /** `DateTime.Ticks`, the value DateTime comparisons use. */
    function Ticks(): nat {
      day * TicksPerDay + time
    }

    /** `DateTime.Date`: the same day at midnight. */
    function Date(): (d: DateTime)
      ensures d.Ticks() <= Ticks() < d.Ticks() + TicksPerDay
    {
      DateTime(day, 0)
    }
  }

  /** `default(DateTime)`, i.e. DateTime.MinValue. */
  const MinValue: DateTime := DateTime(0, 0)

  /** Ticks order is lexicographic order on (day, time of day). */
  lemma TicksOrderIsLexicographic(a: DateTime, b: DateTime)
    ensures a.Ticks() <= b.Ticks() <==> a.day < b.day || (a.day == b.day && a.time <= b.time)
  {
    if a.day < b.day {
      assert a.Ticks() < (a.day + 1) * TicksPerDay <= b.Ticks();
    } else if a.day > b.day {
      assert b.Ticks() < (b.day + 1) * TicksPerDay <= a.Ticks();
    }
  }

  /** A job application. Strings may be null (None); the status is the raw enum value. */
  datatype JobApplication = JobApplication(
    id: int,
    companyName: Option<string>,
    position: Option<string>,
    status: int,
    dateApplied: DateTime)

  /** One page of a listing and the counts the client needs to page through it. */
  datatype PaginatedResult<T> = PaginatedResult(
    data: seq<T>,
    pageNumber: int,
    pageSize: int,
    totalPages: int,
    totalCount: int)

  /** The `[StringLength]` bound on CompanyName and Position. */
  const MaxNameLength: nat := 100

  /** `string.IsNullOrWhiteSpace`. */
  predicate IsNullOrWhiteSpace(s: Option<string>) {
    s.None? || Text.IsDotNetBlank(s.value)
  }

  /**
    The data annotations on the entity, as model validation applies them:
    `[Required]` rejects null and white-space-only strings, `[StringLength(100)]`
    rejects non-null strings longer than 100. `[Required]` on DateApplied never
    fails, because a DateTime is a value type and is never null. The result
    names the failing properties in declaration order.
   */
  function AnnotationFailures(app: JobApplication): (fields: seq<string>)
    ensures "CompanyName" in fields <==>
      IsNullOrWhiteSpace(app.companyName) || |app.companyName.value| > MaxNameLength
    ensures "Position" in fields <==>
      IsNullOrWhiteSpace(app.position) || |app.position.value| > MaxNameLength
    ensures forall f :: f in fields ==> f == "CompanyName" || f == "Position"
  {
    (if NameAnnotationsHold(app.companyName) then [] else ["CompanyName"])
    + (if NameAnnotationsHold(app.position) then [] else ["Position"])
  }

  predicate NameAnnotationsHold(s: Option<string>) {
    !IsNullOrWhiteSpace(s) && |s.value| <= MaxNameLength
  }
}

=== FILE: repository.dfy ===
/**
  The store of job applications: an id-keyed map standing for the database
  table, the paginated listing query, and the single-entity operations.
 */
module Repository {
  import opened Wrappers
  import opened Models
  import opened Exceptions

  /** The table: every entity is stored under its own id, the key of the table. */
  type Store = m: map<int, JobApplication> | forall k :: k in m ==> m[k].id == k

  /** `Find` by key: the stored entity, or null. */
  function GetById(store: Store, id: int): (r: Option<JobApplication>)
    ensures r.Some? <==> id in store
    ensures r.Some? ==> r.value == store[id] && r.value.id == id
  {
    if id in store then Some(store[id]) else None
  }

  /**
    `Add` then `SaveChanges`: the entity is stored under a new key, which
    becomes its id. The key is whatever unused id the database hands out.
   */
  function Add(store: Store, app: JobApplication, newId: int): (r: (Store, JobApplication))
    requires newId !in store
    ensures r.1 == app.(id := newId)
    ensures r.0.Keys == store.Keys + {newId} && r.0[newId] == r.1
    ensures forall k :: k in store ==> r.0[k] == store[k]
  {
    var created := app.(id := newId);
    (store[newId := created], created)
  }

  /** Message of the concurrency exception raised when an update finds no row to change. */
  const MissingRowMessage := "Attempted to update or delete an entity that does not exist in the store."

  /**
    `Update` then `SaveChanges`: the entry with the entity's id is replaced.
    With no such entry the save fails.
   */
  function Update(store: Store, app: JobApplication): (r: Result<Store, Exception>)
    ensures r.Ok? <==> app.id in store
    ensures r.Ok? ==> r.value.Keys == store.Keys && r.value[app.id] == app
    ensures r.Ok? ==> forall k :: k in store && k != app.id ==> r.value[k] == store[k]
  {
    if app.id in store then Ok(store[app.id := app]) else Err(OtherException(MissingRowMessage))
  }

  /** Looks the entity up and, when it exists, removes it; otherwise does nothing. */
  function Delete(store: Store, id: int): (r: Store)
    ensures r.Keys == store.Keys - {id}
    ensures forall k :: k in r ==> r[k] == store[k]
    ensures id !in store ==> r == store
  {
    match GetById(store, id)
    case Some(found) => store - {found.id}
    case None => store
  }

  /* ---- the paginated listing ---- */

  /** Dates applied never increase along the sequence (the query's `OrderByDescending`). */
  predicate DateDescending(s: seq<JobApplication>) {
    forall i, j :: 0 <= i < j < |s| ==> s[j].dateApplied.Ticks() <= s[i].dateApplied.Ticks()
  }

  /** `ordered` lists every stored entity exactly once. */
  predicate Enumerates(store: Store, ordered: seq<JobApplication>) {
    && |ordered| == |store|
    && (forall i :: 0 <= i < |ordered| ==> ordered[i].id in store && store[ordered[i].id] == ordered[i])
    && (forall i, j :: 0 <= i < j < |ordered| ==> ordered[i].id != ordered[j].id)
  }

  /**
    A possible result of ordering the whole table by DateApplied, latest first.
    The database leaves the order among equal dates open, so any such
    sequence may come back.
   */
  predicate IsDateOrdering(store: Store, ordered: seq<JobApplication>) {
    Enumerates(store, ordered) && DateDescending(ordered)
  }

  function IdsOf(s: seq<JobApplication>): set<int> {
    set i | 0 <= i < |s| :: s[i].id
  }

  lemma {:induction false} DistinctIdsCount(s: seq<JobApplication>)
    requires forall i, j :: 0 <= i < j < |s| ==> s[i].id != s[j].id
    ensures |IdsOf(s)| == |s|
  {
    if |s| > 0 {
      var t := s[..|s| - 1];
      DistinctIdsCount(t);
      assert IdsOf(s) == IdsOf(t) + {s[|s| - 1].id};
      assert s[|s| - 1].id !in IdsOf(t);
    }
  }

  lemma {:induction false} SubsetCardinality(a: set<int>, b: set<int>)
    requires a <= b
    ensures |a| <= |b|
    decreases b
  {
    if a != {} {
      assert (forall y :: y !in a) ==> a == {};
      var x :| x in a;
      SubsetCardinality(a - {x}, b - {x});
    }
  }

  /** An ordering misses no stored entity. */
  lemma EnumerationCoversStore(store: Store, ordered: seq<JobApplication>, k: int)
    requires Enumerates(store, ordered)
    requires k in store
    ensures exists i :: 0 <= i < |ordered| && ordered[i] == store[k]
  {
    DistinctIdsCount(ordered);
    if k !in IdsOf(ordered) {
      SubsetCardinality(IdsOf(ordered), store.Keys - {k});
      assert false;
    }
    var i :| 0 <= i < |ordered| && ordered[i].id == k;
  }

  /** `k` is a key with the latest date among `keys`. */
  predicate IsLatest(store: Store, keys: set<int>, k: int)
    requires keys <= store.Keys && k in store
  {
    forall k' :: k' in keys ==> store[k'].dateApplied.Ticks() <= store[k].dateApplied.Ticks()
  }

  lemma {:induction false} LatestExists(store: Store, keys: set<int>)
    requires keys != {} && keys <= store.Keys
    ensures exists k :: k in keys && IsLatest(store, keys, k)
    decreases keys
  {
    assert (forall y :: y !in keys) ==> keys == {};
    var x :| x in keys;
    if keys == {x} {
      assert IsLatest(store, keys, x);
    } else {
      LatestExists(store, keys - {x});
      var y :| y in keys - {x} && IsLatest(store, keys - {x}, y);
      if store[x].dateApplied.Ticks() <= store[y].dateApplied.Ticks() {
        assert IsLatest(store, keys, y);
      } else {
        assert IsLatest(store, keys, x);
      }
    }
  }

  /** Every table has a date ordering: repeatedly take a latest remaining entity. */
  method OrderByDateDescending(store: Store) returns (ordered: seq<JobApplication>)
    ensures IsDateOrdering(store, ordered)
  {
    ordered := [];
    var rest := store.Keys;
    while rest != {}
      invariant rest <= store.Keys
      invariant |ordered| + |rest| == |store|
      invariant forall i :: 0 <= i < |ordered| ==>
        ordered[i].id in store && store[ordered[i].id] == ordered[i] && ordered[i].id !in rest
      invariant forall i, j :: 0 <= i < j < |ordered| ==> ordered[i].id != ordered[j].id
      invariant DateDescending(ordered)
      invariant forall i, k :: 0 <= i < |ordered| && k in rest ==>
        store[k].dateApplied.Ticks() <= ordered[i].dateApplied.Ticks()
      decreases rest
    {
      LatestExists(store, rest);
      var k :| k in rest && IsLatest(store, rest, k);
      ordered := ordered + [store[k]];
      rest := rest - {k};
    }
  }

  const Int32Min: int := -0x8000_0000
  const Int32Max: int := 0x7FFF_FFFF
  type Int32 = x: int | Int32Min <= x <= Int32Max

  /** C#'s unchecked 32-bit arithmetic: the result reduced into the int range. */
  function WrapInt32(x: int): (r: Int32)
    ensures Int32Min <= x <= Int32Max ==> r == x
    ensures (r - x) % 0x1_0000_0000 == 0
  {
    (x - Int32Min) % 0x1_0000_0000 + Int32Min
  }

  /** The first row of a page, counted from 0, in unbounded arithmetic. */
  function PageOffset(pageNumber: int, pageSize: int): int {
    (pageNumber - 1) * pageSize
  }

  /**
    The number of rows skipped: `(pageNumber - 1) * pageSize` in 32-bit
    arithmetic, and LINQ's `Skip` skips nothing for a negative count.
   */
  function SkipCount(pageNumber: Int32, pageSize: Int32): (n: nat)
    requires pageNumber >= 1 && pageSize >= 1
    ensures PageOffset(pageNumber, pageSize) <= Int32Max ==> n == PageOffset(pageNumber, pageSize)
  {
    var skip := WrapInt32(PageOffset(pageNumber, pageSize));
    if skip < 0 then 0 else skip
  }

  /** `Skip(skip).Take(take)` on a sequence. */
  function SkipTake<T>(items: seq<T>, skip: nat, take: nat): (r: seq<T>)
    ensures |r| == if skip >= |items| then 0 else if |items| - skip < take then |items| - skip else take
    ensures forall i :: 0 <= i < |r| ==> r[i] == items[skip + i]
  {
    if skip >= |items| then []
    else if skip + take >= |items| then items[skip..]
    else items[skip..skip + take]
  }

  /** A window of an ordering keeps its order and holds only stored entities. */
  lemma WindowOfOrdering(store: Store, ordered: seq<JobApplication>, skip: nat, take: nat)
    requires IsDateOrdering(store, ordered)
    ensures DateDescending(SkipTake(ordered, skip, take))
    ensures forall i :: 0 <= i < |SkipTake(ordered, skip, take)| ==>
      SkipTake(ordered, skip, take)[i].id in store
      && store[SkipTake(ordered, skip, take)[i].id] == SkipTake(ordered, skip, take)[i]
  {
    var w := SkipTake(ordered, skip, take);
    assert forall i :: 0 <= i < |w| ==> w[i] == ordered[skip + i];
    forall i, j | 0 <= i < j < |w|
      ensures w[j].dateApplied.Ticks() <= w[i].dateApplied.Ticks()
    {
      assert w[i] == ordered[skip + i] && w[j] == ordered[skip + j];
    }
  }

  /** Without overflow, page `pageNumber` is the window starting at row `(pageNumber - 1) * pageSize`. */
  lemma PageWindow(ordered: seq<JobApplication>, pageNumber: Int32, pageSize: Int32)
    requires pageNumber >= 1 && pageSize >= 1
    ensures var skip := PageOffset(pageNumber, pageSize);
      var w := SkipTake(ordered, SkipCount(pageNumber, pageSize), pageSize);
      skip <= Int32Max ==>
      && |w| == (if skip >= |ordered| then 0 else if |ordered| - skip < pageSize then |ordered| - skip else pageSize as int)
      && forall i :: 0 <= i < |w| ==> w[i] == ordered[skip + i]
  {
  }

  lemma MulMono(a: int, b: int, size: int)
    requires size >= 1 && a <= b
    ensures a * size <= b * size
  {
    assert b * size == a * size + (b - a) * size;
  }

  lemma MulStrict(a: int, b: int, size: int)
    requires size >= 1 && a * size < b * size
    ensures a < b
  {
    if a >= b {
      MulMono(b, a, size);
    }
  }

  /** `(int)Math.Ceiling(count / (double)size)` for a positive size: the least number of pages holding `count` rows. */
  function PageCount(count: nat, size: int): (pages: nat)
    requires size >= 1
    ensures pages * size >= count
    ensures (pages - 1) * size < count || pages == 0
  {
    (count + size - 1) / size
  }

  /**
    `GetPaginatedAsync`: counts the table, orders it by DateApplied (latest
    first), skips the earlier pages and takes one page.
   */
  function GetPaginated(store: Store, ordered: seq<JobApplication>, pageNumber: Int32, pageSize: Int32)
    : (r: PaginatedResult<JobApplication>)
    requires IsDateOrdering(store, ordered)
    requires pageNumber >= 1 && pageSize >= 1
    ensures r.totalCount == |store|
    ensures r.pageNumber == pageNumber && r.pageSize == pageSize
    ensures |r.data| <= pageSize
    ensures r.totalPages * pageSize >= |store| && (r.totalPages == 0 || (r.totalPages - 1) * pageSize < |store|)
  {
    var totalCount := |store|;
    var items := SkipTake(ordered, SkipCount(pageNumber, pageSize), pageSize);
    PaginatedResult(items, pageNumber, pageSize, PageCount(totalCount, pageSize), totalCount)
  }

  /** A page keeps the date order and holds stored entities only. */
  lemma PageIsOrdered(store: Store, ordered: seq<JobApplication>, pageNumber: Int32, pageSize: Int32)
    requires IsDateOrdering(store, ordered)
    requires pageNumber >= 1 && pageSize >= 1
    ensures var data := GetPaginated(store, ordered, pageNumber, pageSize).data;
      && DateDescending(data)
      && forall i :: 0 <= i < |data| ==> data[i].id in store && store[data[i].id] == data[i]
  {
    WindowOfOrdering(store, ordered, SkipCount(pageNumber, pageSize), pageSize);
  }

  /**
    Without 32-bit overflow, page `pageNumber` is the run of at most
    `pageSize` entities that starts at position `(pageNumber - 1) * pageSize`
    of the ordering.
   */
  lemma PageIsSlice(store: Store, ordered: seq<JobApplication>, pageNumber: Int32, pageSize: Int32)
    requires IsDateOrdering(store, ordered)
    requires pageNumber >= 1 && pageSize >= 1
    requires PageOffset(pageNumber, pageSize) <= Int32Max
    ensures var skip := PageOffset(pageNumber, pageSize);
      var data := GetPaginated(store, ordered, pageNumber, pageSize).data;
      && |data| == (if skip >= |store| then 0 else if |store| - skip < pageSize then |store| - skip else pageSize as int)
      && forall i :: 0 <= i < |data| ==> data[i] == ordered[skip + i]
  {
    PageWindow(ordered, pageNumber, pageSize);
  }

  /**
    Every stored application is shown on one of the pages the listing
    reports, as long as the count fits the 32-bit `CountAsync`.
   */
  lemma EveryApplicationIsOnAPage(store: Store, ordered: seq<JobApplication>, pageSize: Int32, k: int)
    requires IsDateOrdering(store, ordered)
    requires pageSize >= 1 && |store| <= Int32Max
    requires k in store
    ensures exists p: Int32 :: 1 <= p <= PageCount(|store|, pageSize)
              && store[k] in GetPaginated(store, ordered, p, pageSize).data
  {
    EnumerationCoversStore(store, ordered, k);
    var j :| 0 <= j < |ordered| && ordered[j] == store[k];
    var p: Int32 := PageOfPosition(|store|, pageSize, j);
    RowIsOnItsPage(store, ordered, pageSize, p, j);
  }

  /** Row `j` of the ordering is shown on the page whose positions hold it. */
  lemma RowIsOnItsPage(store: Store, ordered: seq<JobApplication>, pageSize: Int32, p: Int32, j: nat)
    requires IsDateOrdering(store, ordered)
    requires pageSize >= 1 && p >= 1 && j < |ordered| && PageOffset(p, pageSize) <= Int32Max
    requires PageOffset(p, pageSize) <= j < PageOffset(p, pageSize) + pageSize
    ensures ordered[j] in GetPaginated(store, ordered, p, pageSize).data
  {
  }

  /** Row `j` of `count` lies on one of the pages the listing reports. */
  lemma PageOfPosition(count: nat, size: int, j: int) returns (p: int)
    requires size >= 1 && 0 <= j < count
    ensures 1 <= p <= PageCount(count, size) && p <= j + 1
    ensures PageOffset(p, size) <= j < PageOffset(p, size) + size
  {
    var q := RowsBefore(j, size);
    p := q + 1;
    var pages := PageCount(count, size);
    if p > pages {
      MulMono(pages, q, size);
    }
  }

  /** The number of whole pages before row `j`. */
  lemma {:induction false} RowsBefore(j: nat, size: int) returns (q: nat)
    requires size >= 1
    ensures q * size <= j < q * size + size && q <= j
    decreases j
  {
    if j < size {
      q := 0;
    } else {
      var q' := RowsBefore(j - size, size);
      q := q' + 1;
      assert q * size == q' * size + size;
    }
  }

  /** An entity shown on a page sits at one of that page's positions of the ordering. */
  lemma PositionOnPage(store: Store, ordered: seq<JobApplication>, pageSize: Int32, p: Int32, a: JobApplication)
    returns (x: nat)
    requires IsDateOrdering(store, ordered)
    requires pageSize >= 1 && p >= 1 && PageOffset(p, pageSize) <= Int32Max
    requires a in GetPaginated(store, ordered, p, pageSize).data
    ensures x < |ordered| && ordered[x] == a
    ensures PageOffset(p, pageSize) <= x < PageOffset(p, pageSize) + pageSize
  {
    PageWindow(ordered, p, pageSize);
    var data := GetPaginated(store, ordered, p, pageSize).data;
    var i :| 0 <= i < |data| && data[i] == a;
    x := PageOffset(p, pageSize) + i;
  }

  /** A page the listing reports starts at a row that exists. */
  lemma ListedPageStartsInside(count: nat, size: int, p: int)
    requires size >= 1 && 1 <= p <= PageCount(count, size)
    ensures 0 <= PageOffset(p, size) < count
  {
  }

  /** An ordering lists an entity at one position only. */
  lemma SamePositionOfEntity(store: Store, ordered: seq<JobApplication>, x: nat, y: nat)
    requires Enumerates(store, ordered)
    requires x < |ordered| && y < |ordered| && ordered[x] == ordered[y]
    ensures x == y
  {
  }

  /** A position belongs to one page only. */
  lemma PositionPicksOnePage(x: int, p: int, q: int, size: int)
    requires size >= 1
    requires PageOffset(p, size) <= x < PageOffset(p, size) + size
    requires PageOffset(q, size) <= x < PageOffset(q, size) + size
    ensures p == q
  {
    assert PageOffset(p, size) + size == p * size && PageOffset(q, size) + size == q * size;
    if p < q {
      MulMono(p, q - 1, size);
    } else if q < p {
      MulMono(q, p - 1, size);
    }
  }

  /** No application is shown on two different pages of the same size. */
  lemma NoApplicationOnTwoPages(store: Store, ordered: seq<JobApplication>, pageSize: Int32,
                                p: Int32, q: Int32, a: JobApplication)
    requires IsDateOrdering(store, ordered)
    requires pageSize >= 1 && |store| <= Int32Max
    requires 1 <= p <= PageCount(|store|, pageSize) && 1 <= q <= PageCount(|store|, pageSize)
    requires a in GetPaginated(store, ordered, p, pageSize).data
    requires a in GetPaginated(store, ordered, q, pageSize).data
    ensures p == q
  {
    ListedPageStartsInside(|store|, pageSize, p);
    ListedPageStartsInside(|store|, pageSize, q);
    var x := PositionOnPage(store, ordered, pageSize, p, a);
    var y := PositionOnPage(store, ordered, pageSize, q, a);
    SamePositionOfEntity(store, ordered, x, y);
    PositionPicksOnePage(x, p, q, pageSize);
  }

  /** With 25 stored applications, page 2 of size 10 holds the 11th to 20th latest, of 3 pages. */
  lemma SecondPageOfTwentyFive(store: Store, ordered: seq<JobApplication>)
    requires IsDateOrdering(store, ordered) && |store| == 25
    ensures GetPaginated(store, ordered, 2, 10).data == ordered[10..20]
    ensures GetPaginated(store, ordered, 2, 10).totalPages == 3
    ensures GetPaginated(store, ordered, 2, 10).totalCount == 25
  {
  }

  /**
    When `(pageNumber - 1) * pageSize` overflows 32 bits to a negative
    number, nothing is skipped: asking for page 214748366 of size 10 returns
    the first ten rows, while the result still reports page 214748366.
   */
  lemma OverflowingSkipReturnsFirstRows(store: Store, ordered: seq<JobApplication>)
    requires IsDateOrdering(store, ordered) && |store| >= 10
    ensures GetPaginated(store, ordered, 214748366, 10).data == ordered[..10]
    ensures GetPaginated(store, ordered, 214748366, 10).pageNumber == 214748366
  {
    assert WrapInt32((214748366 - 1) * 10) == -2147483646;
    assert SkipCount(214748366, 10) == 0;
  }
}

=== FILE: service.dfy ===
/**
  The application service over the store. Each operation returns the new
  store, its result and the list of repository calls it made, so that
  "calls the repository once" and "never calls it" can be stated.
  A missing id is treated three ways: a hard NotFound failure for a lookup,
  a soft null for an update, and `false` for a delete.
 */
module Service {
  import opened Wrappers
  import opened Models
  import opened Exceptions
  import Text
  import Repository

  type Store = Repository.Store

  /** One call from the service into the repository. */
  datatype RepoCall =
    | GetPaginatedCall(pageNumber: int, pageSize: int)
    | GetByIdCall(id: int)
    | AddCall(application: JobApplication)
    | UpdateCall(application: JobApplication)
    | DeleteCall(id: int)

  /** The outcome of one service operation. */
  datatype Step<T> = Step(store: Store, value: T, calls: seq<RepoCall>)

  function NotFoundMessage(id: int): string {
    "Job application with ID " + Text.IntToString(id) + " is not found."
  }

  /** Delegates the listing to the repository with the page parameters unchanged. */
  function GetPaginatedApplications(store: Store, ordered: seq<JobApplication>,
                                    pageNumber: Repository.Int32, pageSize: Repository.Int32)
    : (r: Step<PaginatedResult<JobApplication>>)
    requires Repository.IsDateOrdering(store, ordered)
    requires pageNumber >= 1 && pageSize >= 1
    ensures r.value == Repository.GetPaginated(store, ordered, pageNumber, pageSize)
    ensures r.store == store && r.calls == [GetPaginatedCall(pageNumber, pageSize)]
  {
    Step(store, Repository.GetPaginated(store, ordered, pageNumber, pageSize), [GetPaginatedCall(pageNumber, pageSize)])
  }

  /** The stored application, or a NotFound failure naming the id. */
  function GetById(store: Store, id: int): (r: Step<Result<JobApplication, Exception>>)
    ensures r.value.Ok? <==> id in store
    ensures r.value.Ok? ==> r.value.value == store[id] && r.value.value.id == id
    ensures r.value.Err? ==> r.value.error == NotFoundException(NotFoundMessage(id))
    ensures r.store == store && r.calls == [GetByIdCall(id)]
  {
    var found := Repository.GetById(store, id);
    var outcome := match found
      case None => Err(NotFoundException(NotFoundMessage(id)))
      case Some(app) => Ok(app);
    Step(store, outcome, [GetByIdCall(id)])
  }

  /**
    Adds the application and returns it, now carrying its new id. There is no
    date check here: a future DateApplied is stored like any other.
   */
  function Create(store: Store, app: JobApplication, newId: int): (r: Step<JobApplication>)
    requires newId !in store
    ensures r.value == app.(id := newId)
    ensures r.store.Keys == store.Keys + {newId} && r.store[newId] == r.value
    ensures forall k :: k in store ==> r.store[k] == store[k]
    ensures r.calls == [AddCall(app)]
  {
    var (store', created) := Repository.Add(store, app, newId);
    Step(store', created, [AddCall(app)])
  }

  /** The existing entity with the four editable fields taken from `input`; the id is kept. */
  function Merge(existing: JobApplication, input: JobApplication): (m: JobApplication)
    ensures m.id == existing.id
    ensures m.companyName == input.companyName && m.position == input.position
    ensures m.status == input.status && m.dateApplied == input.dateApplied
  {
    existing.(companyName := input.companyName, position := input.position,
              status := input.status, dateApplied := input.dateApplied)
  }

  /**
    Looks the id up; when absent returns null without touching the store,
    otherwise overwrites CompanyName, Position, Status and DateApplied of the
    stored entity, persists it and returns it. The id in `input` is ignored.
   */
  function Update(store: Store, id: int, input: JobApplication): (r: Step<Option<JobApplication>>)
    ensures id !in store ==> r.value == None && r.store == store && r.calls == [GetByIdCall(id)]
    ensures id in store ==>
      && r.value == Some(Merge(store[id], input))
      && r.value.value.id == id
      && r.store == store[id := r.value.value]
      && r.calls == [GetByIdCall(id), UpdateCall(r.value.value)]
  {
    match Repository.GetById(store, id)
    case None => Step(store, None, [GetByIdCall(id)])
    case Some(existing) =>
      var merged := Merge(existing, input);
      var saved := Repository.Update(store, merged);
      // The row was just found under `id`, which the merge keeps, so the save cannot fail.
      assert saved.Ok?;
      Step(saved.value, Some(merged), [GetByIdCall(id), UpdateCall(merged)])
  }

  /** Looks the id up; false when absent, otherwise deletes it and returns true. */
  function Delete(store: Store, id: int): (r: Step<bool>)
    ensures r.value <==> id in store
    ensures r.store == store - {id}
    ensures id !in store ==> r.store == store && r.calls == [GetByIdCall(id)]
    ensures id in store ==> r.calls == [GetByIdCall(id), DeleteCall(id)]
  {
    match Repository.GetById(store, id)
    case None => Step(store, false, [GetByIdCall(id)])
    case Some(_) => Step(Repository.Delete(store, id), true, [GetByIdCall(id), DeleteCall(id)])
  }

  /** Reading back a created application gives the input with its new id. */
  lemma CreateThenGet(store: Store, app: JobApplication, newId: int)
    requires newId !in store
    ensures GetById(Create(store, app, newId).store, newId).value == Ok(app.(id := newId))
  {
  }

  /** Reading back an updated application gives the merged entity. */
  lemma UpdateThenGet(store: Store, id: int, input: JobApplication)
    requires id in store
    ensures GetById(Update(store, id, input).store, id).value == Ok(Update(store, id, input).value.value)
  {
  }

  /** Updating twice with the same input leaves the same store and result as updating once. */
  lemma UpdateIsIdempotent(store: Store, id: int, input: JobApplication)
    ensures var once := Update(store, id, input);
      var twice := Update(once.store, id, input);
      twice.store == once.store && twice.value == once.value
  {
  }

  /** Deleting the same id twice answers true then false when it was stored. */
  lemma DeleteTwice(store: Store, id: int)
    requires id in store
    ensures Delete(store, id).value
    ensures !Delete(Delete(store, id).store, id).value
    ensures Delete(Delete(store, id).store, id).store == Delete(store, id).store
  {
  }

  /** For a missing id the lookup fails hard while the update answers a soft null and the delete false. */
  lemma MissingIdThreeWays(store: Store, id: int, input: JobApplication)
    requires id !in store
    ensures GetById(store, id).value == Err(NotFoundException(NotFoundMessage(id)))
    ensures Update(store, id, input).value == None
    ensures !Delete(store, id).value
    ensures Update(store, id, input).store == store && Delete(store, id).store == store
  {
  }

  /**
    The service accepts a DateApplied after today: creating such an
    application stores it. The future-date rule lives only in the validator.
   */
  lemma CreateStoresFutureDate(store: Store, app: JobApplication, newId: int, now: DateTime)
    requires newId !in store
    requires app.dateApplied.day > now.day
    ensures Create(store, app, newId).store[newId].dateApplied.day > now.day
    ensures Create(store, app, newId).calls == [AddCall(app)]
  {
  }
}

=== FILE: text.dfy ===
/**
  Character and string helpers the backend (.NET) and the frontend (JavaScript)
  rely on: decimal formatting and parsing of integers, zero padding, substring
  search, and the two runtimes' notions of white space.
 */
module Text {
  import opened Wrappers

  predicate IsDigit(c: char) {
    '0' <= c <= '9'
  }

  predicate AllDigits(s: string) {
    forall i :: 0 <= i < |s| ==> IsDigit(s[i])
  }

  function DigitValue(c: char): (d: nat)
    requires IsDigit(c)
    ensures d < 10
  {
    c as int - '0' as int
  }

  function DigitChar(d: nat): (c: char)
    requires d < 10
    ensures IsDigit(c) && DigitValue(c) == d
  {
    ('0' as int + d) as char
  }

  /** Value of a string of decimal digits, most significant first. */
  function DigitsValue(s: string): nat
    requires AllDigits(s)
  {
    if |s| == 0 then 0 else DigitsValue(s[..|s| - 1]) * 10 + DigitValue(s[|s| - 1])
  }

  /** Canonical decimal form of a natural number (no sign, no leading zero). */
  function NatToString(n: nat): (s: string)
    ensures |s| >= 1 && AllDigits(s)
    ensures s[0] == '0' <==> n == 0
    ensures |s| > 1 ==> s[0] != '0'
  {
    if n < 10 then [DigitChar(n)] else NatToString(n / 10) + [DigitChar(n % 10)]
  }

  /** Parses a non-empty string of decimal digits; anything else is rejected. */
  function ParseNat(s: string): (r: Option<nat>)
    ensures r.Some? <==> |s| > 0 && AllDigits(s)
  {
    if |s| > 0 && AllDigits(s) then Some(DigitsValue(s)) else None
  }

  lemma {:induction false} NatToStringRoundTrip(n: nat)
    ensures ParseNat(NatToString(n)) == Some(n)
  {
    if n >= 10 {
      var t := NatToString(n / 10);
      var s := NatToString(n);
      NatToStringRoundTrip(n / 10);
      assert s == t + [DigitChar(n % 10)];
      assert s[..|s| - 1] == t;
      assert DigitsValue(s) == DigitsValue(t) * 10 + n % 10;
    }
  }

  /** Decimal form of an integer as both runtimes print it: a leading '-' for negatives. */
  function IntToString(i: int): (s: string)
    ensures |s| >= 1
    ensures s[0] == '-' <==> i < 0
    ensures s[0] == '-' || IsDigit(s[0])
  {
    if i < 0 then "-" + NatToString(-i) else NatToString(i)
  }

  function ParseInt(s: string): (r: Option<int>)
    ensures r.Some? && |s| > 0 && s[0] != '-' ==> r.value >= 0
  {
    if |s| > 0 && s[0] == '-' then
      match ParseNat(s[1..])
      case Some(n) => Some(0 - n as int)
      case None => None
    else
      match ParseNat(s)
      case Some(n) => Some(n)
      case None => None
  }

  lemma {:induction false} IntToStringRoundTrip(i: int)
    ensures ParseInt(IntToString(i)) == Some(i)
  {
    var s := IntToString(i);
    if i < 0 {
      assert s[1..] == NatToString(-i);
      NatToStringRoundTrip(-i);
    } else {
      NatToStringRoundTrip(i);
    }
  }

  /** JavaScript's `String.prototype.padStart(width, fill)` for a one-character fill. */
  function PadStart(s: string, width: nat, fill: char): (r: string)
    ensures |r| == if |s| >= width then |s| else width
    ensures r[|r| - |s|..] == s
    ensures forall i :: 0 <= i < |r| - |s| ==> r[i] == fill
  {
    if |s| >= width then s else seq(width - |s|, _ => fill) + s
  }

  /** JavaScript's `String.prototype.includes`. */
  function Includes(s: string, sub: string): bool
    decreases |s|
  {
    if |sub| > |s| then false
    else if s[..|sub|] == sub then true
    else Includes(s[1..], sub)
  }

  predicate OccursAt(s: string, sub: string, i: int) {
    0 <= i && i + |sub| <= |s| && s[i..i + |sub|] == sub
  }

  lemma {:induction false} IncludesMeansOccurs(s: string, sub: string)
    ensures Includes(s, sub) <==> exists i :: OccursAt(s, sub, i)
    decreases |s|
  {
    if |sub| > |s| {
    } else if s[..|sub|] == sub {
      assert OccursAt(s, sub, 0);
    } else {
      IncludesMeansOccurs(s[1..], sub);
      if Includes(s[1..], sub) {
        var i :| OccursAt(s[1..], sub, i);
        assert s[1..][i..i + |sub|] == s[i + 1..i + 1 + |sub|];
        assert OccursAt(s, sub, i + 1);
      } else {
        forall i | OccursAt(s, sub, i)
          ensures false
        {
          if i > 0 {
            assert s[1..][i - 1..i - 1 + |sub|] == s[i..i + |sub|];
            assert OccursAt(s[1..], sub, i - 1);
          }
        }
      }
    }
  }

  /** .NET's `char.IsWhiteSpace`: the Unicode space, line and paragraph separators plus U+0009..U+000D, U+0085 and U+00A0. */
  predicate IsDotNetWhiteSpace(c: char) {
    var n := c as int;
    || (0x09 <= n <= 0x0D) || n == 0x20 || n == 0x85 || n == 0xA0 || n == 0x1680
    || (0x2000 <= n <= 0x200A) || n == 0x2028 || n == 0x2029 || n == 0x202F
    || n == 0x205F || n == 0x3000
  }

  /** The characters JavaScript's `trim` removes: WhiteSpace and LineTerminator, which include U+FEFF but not U+0085. */
  predicate IsJsWhiteSpace(c: char) {
    var n := c as int;
    || (0x09 <= n <= 0x0D) || n == 0x20 || n == 0xA0 || n == 0x1680
    || (0x2000 <= n <= 0x200A) || n == 0x2028 || n == 0x2029 || n == 0x202F
    || n == 0x205F || n == 0x3000 || n == 0xFEFF
  }

  /** `string.IsNullOrWhiteSpace` on a non-null string: empty or white space only. */
  predicate IsDotNetBlank(s: string) {
    forall i :: 0 <= i < |s| ==> IsDotNetWhiteSpace(s[i])
  }

  predicate IsJsBlank(s: string) {
    forall i :: 0 <= i < |s| ==> IsJsWhiteSpace(s[i])
  }

  function JsTrimStart(s: string): (r: string)
    ensures |r| <= |s| && r == s[|s| - |r|..]
    ensures forall i :: 0 <= i < |s| - |r| ==> IsJsWhiteSpace(s[i])
    ensures |r| > 0 ==> !IsJsWhiteSpace(r[0])
  {
    if |s| > 0 && IsJsWhiteSpace(s[0]) then JsTrimStart(s[1..]) else s
  }

  function JsTrimEnd(s: string): (r: string)
    ensures |r| <= |s| && r == s[..|r|]
    ensures forall i :: |r| <= i < |s| ==> IsJsWhiteSpace(s[i])
    ensures |r| > 0 ==> !IsJsWhiteSpace(r[|r| - 1])
  {
    if |s| > 0 && IsJsWhiteSpace(s[|s| - 1]) then JsTrimEnd(s[..|s| - 1]) else s
  }

  /** JavaScript's `String.prototype.trim`. */
  function JsTrim(s: string): string {
    JsTrimEnd(JsTrimStart(s))
  }

  /** `s.trim().length === 0` holds exactly for the strings made of white space only. */
  lemma JsTrimEmptyIffBlank(s: string)
    ensures |JsTrim(s)| == 0 <==> IsJsBlank(s)
  {
    var t := JsTrimStart(s);
    if |t| > 0 {
      assert !IsJsWhiteSpace(t[0]);
      assert |JsTrimEnd(t)| > 0;
      assert s[|s| - |t|] == t[0];
    }
  }
}

=== FILE: validator.dfy ===
/**
  The FluentValidation rule set for a job application. Every rule of every
  property is evaluated (the default "continue" cascade), so one property can
  collect several failures; failures are listed property by property, in the
  order the rules are declared.
 */
module Validator {
  import opened Wrappers
  import opened Models
  import Text

  /** The validated properties, in the order their rules are declared. */
  datatype Property = CompanyName | Position | Status | DateApplied {

    function Name(): string {
      match this
      case CompanyName => "CompanyName"
      case Position => "Position"
      case Status => "Status"
      case DateApplied => "DateApplied"
    }

    function Rank(): nat {
      match this
      case CompanyName => 0
      case Position => 1
      case Status => 2
      case DateApplied => 3
    }
  }

  /** The FluentValidation validators the rule set uses. */
  datatype Rule = NotEmpty | MaximumLength | MinimumLength | InEnum | NotInFuture

  /** FluentValidation's failure record: which property failed which rule. */
  datatype ValidationFailure = ValidationFailure(property: Property, rule: Rule) {

    function PropertyName(): string {
      property.Name()
    }
  }

  /**
    The property name as FluentValidation shows it in a default message:
    the PascalCase name split into words.
   */
  function DisplayName(property: Property): string {
    match property
    case CompanyName => "Company Name"
    case Position => "Position"
    case Status => "Status"
    case DateApplied => "Date Applied"
  }

  /** FluentValidation's default message for `NotEmpty`. */
  function DefaultNotEmptyMessage(displayName: string): string {
    "'" + displayName + "' must not be empty."
  }

  /** The failures the rule set can report: each property with the rules declared for it. */
  predicate Reportable(f: ValidationFailure) {
    match f.property
    case CompanyName => f.rule in {NotEmpty, MaximumLength, MinimumLength}
    case Position => f.rule in {NotEmpty, MaximumLength, MinimumLength}
    case Status => f.rule == InEnum
    case DateApplied => f.rule in {NotEmpty, NotInFuture}
  }

  const CompanyNameRequired := "Company Name" + " is required"
  const CompanyNameTooLong := "Company Name" + " should not exceed 100 characters."
  const CompanyNameTooShort := "Company Name" + " must be at least 2 characters long."
  const PositionRequired := "Position" + " is required"
  const PositionTooLong := "Position" + " should not exceed 100 characters."
  const PositionTooShort := "Position" + " must be at least 2 characters long."
  const InvalidStatus := "Invalid status"
  const FutureDate := "Date cannot" + " be in the future"

  /**
    The message attached to a failure. Every name rule has a custom message
    that opens with the property's name in words; `NotEmpty` on DateApplied
    has none, so FluentValidation's default applies.
   */
  function ErrorMessage(f: ValidationFailure): (m: string)
    ensures f.property in {CompanyName, Position} ==> DisplayName(f.property) <= m
  {
    match (f.property, f.rule)
    case (CompanyName, NotEmpty) => CompanyNameRequired
    case (CompanyName, MaximumLength) => CompanyNameTooLong
    case (CompanyName, _) => CompanyNameTooShort
    case (Position, NotEmpty) => PositionRequired
    case (Position, MaximumLength) => PositionTooLong
    case (Position, _) => PositionTooShort
    case (Status, _) => InvalidStatus
    case (DateApplied, NotEmpty) => DefaultNotEmptyMessage(DisplayName(DateApplied))
    case (DateApplied, _) => FutureDate
  }

  /**
    A message names its failure: two failures the rule set can report share
    a message exactly when they are the same failure, so the `details` list
    of an error response tells every failure apart.
   */
  lemma MessagesIdentifyFailures(f: ValidationFailure, g: ValidationFailure)
    requires Reportable(f) && Reportable(g)
    ensures ErrorMessage(f) == ErrorMessage(g) <==> f == g
  {
  }

  const MinNameLength: nat := 2

  /**
    NotEmpty, MaximumLength(100) and MinimumLength(2) on a string property.
    The two length rules pass on null; NotEmpty fails on null, empty and white space.
   */
  function NameRules(property: Property, value: Option<string>): (errors: seq<ValidationFailure>)
    ensures forall e :: e in errors ==> e.property == property
    ensures ValidationFailure(property, NotEmpty) in errors <==> IsNullOrWhiteSpace(value)
    ensures ValidationFailure(property, MaximumLength) in errors <==>
      value.Some? && |value.value| > MaxNameLength
    ensures ValidationFailure(property, MinimumLength) in errors <==>
      value.Some? && |value.value| < MinNameLength
    ensures forall e :: e in errors ==> e.rule in {NotEmpty, MaximumLength, MinimumLength}
    ensures |errors| <= 2
  {
    (if IsNullOrWhiteSpace(value) then [ValidationFailure(property, NotEmpty)] else [])
    + (if value.Some? && |value.value| > MaxNameLength
       then [ValidationFailure(property, MaximumLength)] else [])
    + (if value.Some? && |value.value| < MinNameLength
       then [ValidationFailure(property, MinimumLength)] else [])
  }

  /** `IsInEnum` on the raw status value. */
  function StatusRules(status: int): (errors: seq<ValidationFailure>)
    ensures errors == [] <==> 0 <= status <= 3
    ensures forall e :: e in errors ==> e == ValidationFailure(Status, InEnum)
  {
    if IsInEnum(status) then [] else [ValidationFailure(Status, InEnum)]
  }

  /**
    NotEmpty (not the default DateTime) and "the calendar day is not after
    today's": both sides are truncated with `.Date`, so times of day play no part.
   */
  function DateRules(dateApplied: DateTime, now: DateTime): (errors: seq<ValidationFailure>)
    ensures ValidationFailure(DateApplied, NotEmpty) in errors <==> dateApplied == MinValue
    ensures ValidationFailure(DateApplied, NotInFuture) in errors <==> dateApplied.day > now.day
    ensures forall e :: e in errors ==> e.property == DateApplied
    ensures forall e :: e in errors ==> e.rule in {NotEmpty, NotInFuture}
  {
    (if dateApplied == MinValue then [ValidationFailure(DateApplied, NotEmpty)] else [])
    + (if dateApplied.Date().Ticks() <= now.Date().Ticks() then []
       else [ValidationFailure(DateApplied, NotInFuture)])
  }

  /** A name the rules accept: not null, not blank, 2 to 100 characters. */
  predicate NameAcceptable(s: Option<string>) {
    s.Some? && !Text.IsDotNetBlank(s.value) && MinNameLength <= |s.value| <= MaxNameLength
  }

  /** Reference definition of an application the validator accepts, on the day of `now`. */
  predicate Acceptable(app: JobApplication, now: DateTime) {
    && NameAcceptable(app.companyName)
    && NameAcceptable(app.position)
    && 0 <= app.status <= 3
    && app.dateApplied != MinValue
    && app.dateApplied.day <= now.day
  }

  /** Failures listed property by property, in the order the rules are declared. */
  predicate InDeclarationOrder(errors: seq<ValidationFailure>) {
    forall i :: 0 < i < |errors| ==> errors[i - 1].property.Rank() <= errors[i].property.Rank()
  }

  lemma DeclarationOrderOfParts(a: seq<ValidationFailure>, b: seq<ValidationFailure>,
                                c: seq<ValidationFailure>, d: seq<ValidationFailure>)
    requires forall e :: e in a ==> e.property == CompanyName
    requires forall e :: e in b ==> e.property == Position
    requires forall e :: e in c ==> e.property == Status
    requires forall e :: e in d ==> e.property == DateApplied
    ensures InDeclarationOrder(a + b + c + d)
  {
  }

  /** The validator's constructor rule set applied to one application, `now` being `DateTime.UtcNow`. */
  function Validate(app: JobApplication, now: DateTime): (errors: seq<ValidationFailure>)
    ensures errors == [] <==> Acceptable(app, now)
    ensures InDeclarationOrder(errors)
  {
    var company := NameRules(CompanyName, app.companyName);
    var position := NameRules(Position, app.position);
    var status := StatusRules(app.status);
    var date := DateRules(app.dateApplied, now);
    DeclarationOrderOfParts(company, position, status, date);
    company + position + status + date
  }

  /** A failure is in the joined list exactly when it is in the part for its own property. */
  lemma FailureInOwnPart(f: ValidationFailure, a: seq<ValidationFailure>, b: seq<ValidationFailure>,
                         c: seq<ValidationFailure>, d: seq<ValidationFailure>)
    requires forall e :: e in a ==> e.property == CompanyName
    requires forall e :: e in b ==> e.property == Position
    requires forall e :: e in c ==> e.property == Status
    requires forall e :: e in d ==> e.property == DateApplied
    ensures f in a + b + c + d <==>
      match f.property
      case CompanyName => f in a
      case Position => f in b
      case Status => f in c
      case DateApplied => f in d
  {
    assert f in a + b + c + d <==> f in a || f in b || f in c || f in d;
  }

  /** Each CompanyName rule reports its failure exactly when its own condition is violated, whatever the other properties hold. */
  lemma ValidateReportsCompanyNameRules(app: JobApplication, now: DateTime)
    ensures var errors := Validate(app, now);
      && (ValidationFailure(CompanyName, NotEmpty) in errors <==> IsNullOrWhiteSpace(app.companyName))
      && (ValidationFailure(CompanyName, MaximumLength) in errors <==>
          app.companyName.Some? && |app.companyName.value| > 100)
      && (ValidationFailure(CompanyName, MinimumLength) in errors <==>
          app.companyName.Some? && |app.companyName.value| < 2)
  {
    var company := NameRules(CompanyName, app.companyName);
    var position := NameRules(Position, app.position);
    var status := StatusRules(app.status);
    var date := DateRules(app.dateApplied, now);
    FailureInOwnPart(ValidationFailure(CompanyName, NotEmpty), company, position, status, date);
    FailureInOwnPart(ValidationFailure(CompanyName, MaximumLength), company, position, status, date);
    FailureInOwnPart(ValidationFailure(CompanyName, MinimumLength), company, position, status, date);
  }

  /** Each Position rule reports its failure exactly when its own condition is violated, whatever the other properties hold. */
  lemma ValidateReportsPositionRules(app: JobApplication, now: DateTime)
    ensures var errors := Validate(app, now);
      && (ValidationFailure(Position, NotEmpty) in errors <==> IsNullOrWhiteSpace(app.position))
      && (ValidationFailure(Position, MaximumLength) in errors <==>
          app.position.Some? && |app.position.value| > 100)
      && (ValidationFailure(Position, MinimumLength) in errors <==>
          app.position.Some? && |app.position.value| < 2)
  {
    var company := NameRules(CompanyName, app.companyName);
    var position := NameRules(Position, app.position);
    var status := StatusRules(app.status);
    var date := DateRules(app.dateApplied, now);
    FailureInOwnPart(ValidationFailure(Position, NotEmpty), company, position, status, date);
    FailureInOwnPart(ValidationFailure(Position, MaximumLength), company, position, status, date);
    FailureInOwnPart(ValidationFailure(Position, MinimumLength), company, position, status, date);
  }

  /** The Status and DateApplied rules report their failures exactly when their own conditions are violated. */
  lemma ValidateReportsStatusAndDateRules(app: JobApplication, now: DateTime)
    ensures var errors := Validate(app, now);
      && (ValidationFailure(Status, InEnum) in errors <==> !(0 <= app.status <= 3))
      && (ValidationFailure(DateApplied, NotEmpty) in errors <==> app.dateApplied == MinValue)
      && (ValidationFailure(DateApplied, NotInFuture) in errors <==> app.dateApplied.day > now.day)
  {
    var company := NameRules(CompanyName, app.companyName);
    var position := NameRules(Position, app.position);
    var status := StatusRules(app.status);
    var date := DateRules(app.dateApplied, now);
    FailureInOwnPart(ValidationFailure(Status, InEnum), company, position, status, date);
    FailureInOwnPart(ValidationFailure(DateApplied, NotEmpty), company, position, status, date);
    FailureInOwnPart(ValidationFailure(DateApplied, NotInFuture), company, position, status, date);
  }

  /** An application the validator accepts also satisfies the data annotations. */
  lemma ValidatorImpliesAnnotations(app: JobApplication, now: DateTime)
    requires Validate(app, now) == []
    ensures AnnotationFailures(app) == []
  {
  }

  /**
    Under the continue cascade an empty string collects both the required and
    the too-short failure, in that order, whichever name property it is.
   */
  lemma EmptyNameCollectsTwoFailures(property: Property)
    ensures NameRules(property, Some("")) == [ValidationFailure(property, NotEmpty), ValidationFailure(property, MinimumLength)]
    ensures property in {CompanyName, Position} ==>
      && ErrorMessage(ValidationFailure(property, NotEmpty)) == DisplayName(property) + " is required"
      && ErrorMessage(ValidationFailure(property, MinimumLength)) == DisplayName(property) + " must be at least 2 characters long."
  {
    assert IsNullOrWhiteSpace(Some(""));
  }

  /** The future-date rule looks only at calendar days: the times of day of both dates are ignored. */
  lemma FutureRuleIgnoresTimeOfDay(app: JobApplication, now: DateTime, t: TimeOfDay, u: TimeOfDay)
    requires app.dateApplied.day > 0
    ensures Validate(app.(dateApplied := DateTime(app.dateApplied.day, t)), DateTime(now.day, u))
         == Validate(app, now)
  {
  }
}

=== FILE: wrappers.dfy ===
/** Small failure-carrying datatypes shared by the model. */
module Wrappers {

  /** An optional value; `None` stands for the source's `null`. */
  datatype Option<+T> = None | Some(value: T)

  /** Either a value or the exception an operation raises instead. */
  datatype Result<+T, +E> = Ok(value: T) | Err(error: E)
}
